=== FILE: README.md ===
# Portfolio site behaviour, modelled in Dafny

This project models the client-side behaviour of a portfolio web site. Six
browser modules are covered, each by one Dafny module:

| Dafny module | file | what it models |
|---|---|---|
| `FlipBoard` | `flip_board.dfy` | The split-flap job-title banner (`flipBoardAnimation.js`). Title text is split into character cells with a line break after the first word. Each cell cycles through eight random glyphs and settles on the upper-cased target, with a 120 ms stagger between cells. The rotation steps through the titles; reduced motion swaps the text instantly. |
| `Lightbox` | `lightbox.dfy` | The lightbox binder (`lightgallery.js`). It builds the `description:` text from alt text and caption, and assigns gallery groups for carousels, standalone figures, the gallery grid and the accordion images. |
| `Accordion` | `accordion.dfy` | The exclusive-open milestone accordions and the case-study accordions (`accordion.js`). |
| `Navigation` | `navigation.dfy` | Top-navigation highlighting (`navigation.js`). A fixed section-to-nav table is checked in order, and the first region near the top of the viewport wins. |
| `SideNav` | `side_nav_bar.dfy` | The side navigation (`side-nav-bar.js`). Covers building the numbered links, assigning missing section ids, the link-to-section round trip, the scroll target, and the active link. |
| `CarouselDots` | `carousel_dots.dfy` | Carousel dots kept in step with a looping marquee (`carousel-dots.js`). Covers the index formula, the dot click with its guard, snap and single pending resume timer, and the mobile tap into the lightbox. |

Two support modules sit underneath:
- `Wrappers` holds `Option`.
- `Text` models the JavaScript string and number built-ins the modules rely on:
  - `toUpperCase`, restricted to ASCII letters.
  - `split` on one character, and `trim`.
  - `String(n)` for non-negative integers, and `padStart`.
  - `parseInt`. It skips leading white space (ASCII, no-break space and byte-order mark), reads an optional sign and the longest digit prefix, and gives NaN when no digit follows. `undefined` reads as NaN.

How the browser is represented:
- The DOM is reduced to the records each handler reads and writes.
- Layout measurements are inputs. Bounding boxes, `scrollY`, the window height and the marquee's `m41` offset are `real`. The strip's `scrollWidth` is a `nat` and the viewport width `innerWidth` is an `int`.
- `Math.random()` becomes a draw in [0, 1). The draw comes from a function parameter (`pick`), so every property holds for every sequence of draws.
- Timers are explicit. Elapsed time in the banner is computed as millisecond offsets. A carousel resume timer is a pending record that fires when the caller says it does.

The banner's ARIA label is set only after every cell has settled
(`flipBoardAnimation.js:208-211`), so it keeps naming the previous title while
the new one animates. `FlipBoard.BeginTransition` keeps the
old label and `FlipBoard.FinishTransition` sets the new one.

The dot-click guard is modelled exactly as written. It turns away only NaN and
values at or past the slide count, so a negative `data-slide` is accepted
(`CarouselDots.NegativeSlideAccepted`). For such a value the written transform is
`translateX(--Npx)`. CSS rejects that, so the inline offset stays as it was, and
no dot matches the index. This lasts only until the next animation frame,
which derives an index in range from the strip's offset and marks that dot
(`CarouselDots.FrameAfterNegativeSlide`).

The carousel tracks the active dot in a variable that starts at 0, whatever
the markup marks active, and a call with the tracked index is taken for a
repeat and changes no dot (`carousel-dots.js:28-32`). Every animation frame
calls it with the index derived from the strip's offset (`carousel-dots.js:40-57`).
When the markup marks another dot active, the markup stays stale as long as
no frame has derived an index other than 0. In that window a mobile tap opens
the lightbox at the other slide, and a click on dot 0 leaves the other dot
active, so a tap after it still opens the other slide
(`CarouselDots.StaleMarkupDot`). The first frame that derives a non-zero
index corrects the dots (`CarouselDots.FrameResyncsStaleDot`).

In the gallery grid both the image and its new anchor get class
`glightbox-gallery` and `data-gallery="gallery-grid"`
(`lightgallery.js:120-127`), and the viewer's selector matches that class, so
every grid image is listed twice in the grid's group
(`Lightbox.GridImageListedTwice`). Standalone images likewise carry their class
on both elements, but with no group.

The typing cursor is a node of the banner container. It is appended after the
first title (`flipBoardAnimation.js:170-172`) and after every animated rebuild
(`flipBoardAnimation.js:136-138`). The reduced-motion swap empties the container
and does not put it back (`flipBoardAnimation.js:153-155`), so with reduced
motion the cursor is gone after the first tick.

## Model

| member | source | states |
|---|---|---|
| `Text.UpperString` | src/js/modules/flipBoardAnimation.js:97 | Upper-casing keeps the length and maps every character through the ASCII upper-case map. |
| `Text.Split` | src/js/modules/flipBoardAnimation.js:43 | Splitting on a separator gives at least one part, and no part contains the separator. |
| `Text.JoinSplit` | src/js/modules/flipBoardAnimation.js:43 | Joining the parts of a split with the separator gives back the original text. |
| `Text.FlattenSplit` | src/js/modules/flipBoardAnimation.js:43-54 | Concatenating the words of a split gives the text with every separator removed, so the cells are exactly the non-space characters in order. |
| `Text.SplitHead` | src/js/modules/flipBoardAnimation.js:43-61 | The first word is the text before the first space. The remaining words together are the rest of the text without spaces. |
| `Text.Remove` | src/js/modules/flipBoardAnimation.js:46-54 | Removing a character leaves no occurrence of it and never lengthens the text. |
| `Text.Before` | src/js/modules/flipBoardAnimation.js:57-60 | The first word is a prefix free of the separator, followed by the separator or by the end of the text. |
| `Text.LeadLen` | src/js/modules/lightgallery.js:26 | The leading white-space run is all white space, and the next character is not white space. |
| `Text.TrailLen` | src/js/modules/lightgallery.js:26 | The trailing white-space run is all white space, and the character before it is not white space. |
| `Text.Trim` | src/js/modules/lightgallery.js:26 | A trimmed caption has no white space at either end and is a contiguous piece of the original text. |
| `Text.Digits` | src/js/modules/side-nav-bar.js:70 | `String(n)` is a non-empty digit string without a leading zero. |
| `Text.ParseDigitsOfDigits` | src/js/modules/side-nav-bar.js:66 | Reading back the decimal numeral of n gives n. |
| `Text.DigitsInjective` | src/js/modules/lightgallery.js:22 | Different numbers have different numerals. |
| `Text.LeadingZeros` | src/js/modules/side-nav-bar.js:70 | Leading zeros do not change the value of a numeral. |
| `Text.PadStart` | src/js/modules/side-nav-bar.js:70 | Padding reaches the requested width, keeps the text as a suffix, and fills the prefix with the pad character. |
| `Text.PadStartZeros` | src/js/modules/side-nav-bar.js:70 | A numeral padded with '0' is still a numeral of the same value. |
| `Text.DigitPrefixLen` | src/js/modules/carousel-dots.js:62 | The digit prefix is all digits and is followed by a non-digit or by the end of the text. |
| `Text.ParseInt` | src/js/modules/carousel-dots.js:62 | `parseInt` returns a number only when the text contains a digit. |
| `Text.ParseIntAttr` | src/js/modules/carousel-dots.js:62 | A missing attribute parses as NaN. |
| `Text.ParseIntDigits` | src/js/modules/carousel-dots.js:62 | `parseInt(String(n))` is n. |
| `Text.ParseIntNegative` | src/js/modules/carousel-dots.js:62-63 | A minus sign followed by a numeral parses as the negative number. |
| `FlipBoard.RandomIndex` | src/js/modules/flipBoardAnimation.js:36 | `floor(r × 46)` for r in [0, 1) is a valid charset index. |
| `FlipBoard.GetRandomChar` | src/js/modules/flipBoardAnimation.js:35-37 | A random glyph always comes from the charset. |
| `FlipBoard.RandomIndexCovers` | src/js/modules/flipBoardAnimation.js:35-37 | Every charset position is reachable by some draw. |
| `FlipBoard.ShowAll` | src/js/modules/flipBoardAnimation.js:42-64 | What is displayed is, node by node, the glyph of each span and a line break for each `br`. |
| `FlipBoard.Cells` | src/js/modules/flipBoardAnimation.js:47-54 | One span per character, in order, whose text and `targetChar` are both that character. |
| `FlipBoard.WithBreak` | src/js/modules/flipBoardAnimation.js:56-60 | Inserting the `br` puts it at the given position and shifts later spans by one. |
| `FlipBoard.CreateCharacterSpans` | src/js/modules/flipBoardAnimation.js:42-64 | The cells of the first word, one `br`, then the cells of the remaining words with spaces dropped. |
| `FlipBoard.BeforeAfterRemove` | src/js/modules/flipBoardAnimation.js:42-64 | The first word followed by the rest without spaces is the whole text without spaces. |
| `FlipBoard.CharacterSpansLayout` | src/js/modules/flipBoardAnimation.js:42-64 | There is exactly one `br`, placed after the first word. The spans are the non-space characters in input order, each with equal text and `targetChar`. A one-word text ends with the `br`. |
| `FlipBoard.AfterWithoutSeparator` | src/js/modules/flipBoardAnimation.js:43 | A text without spaces has nothing after its first word. |
| `FlipBoard.UpperRemove` | src/js/modules/flipBoardAnimation.js:97-98 | Upper-casing then dropping spaces equals dropping spaces then upper-casing. |
| `FlipBoard.UpperBefore` | src/js/modules/flipBoardAnimation.js:97-98 | Upper-casing does not move the first space. |
| `FlipBoard.CycleCharacter` | src/js/modules/flipBoardAnimation.js:78-91 | Nine frames, 200 ms apart. The first eight show charset glyphs and the last shows the upper-cased target. The cell settles 1800 ms after it starts. |
| `FlipBoard.StartCell` | src/js/modules/flipBoardAnimation.js:112-123 | Cell k starts at k × 120 ms from a charset glyph, settles on the upper-cased character, and finishes at k × 120 + 1800 ms. |
| `FlipBoard.StartCells` | src/js/modules/flipBoardAnimation.js:111-133 | The same holds for every cell of the title, in order. |
| `FlipBoard.TransitionToTitle` | src/js/modules/flipBoardAnimation.js:96-147 | There is one run per non-space character with the break after the first word. Run k starts at k × 120 ms from a random glyph and settles on the upper-cased k-th character at k × 120 + 1800 ms. |
| `FlipBoard.SwapTextLayout` | src/js/modules/flipBoardAnimation.js:152-156 | The instant swap shows the upper-cased non-space characters with the break after the first word. |
| `FlipBoard.TransitionLayout` | src/js/modules/flipBoardAnimation.js:111-138 | Opening and closing layouts have one node per non-space character, the break at the same position, and the cursor last. The settled cells show the upper-cased characters on both sides of the break. |
| `FlipBoard.TransitionMatchesSwap` | src/js/modules/flipBoardAnimation.js:96-156 | The animated transition has its break where the instant swap has it. Once settled, the animated container shows exactly what the swap shows, followed by the cursor, which the swap does not contain. |
| `FlipBoard.TransitionEnd` | src/js/modules/flipBoardAnimation.js:141 | The transition ends at the latest cell settle time, which some cell reaches. |
| `FlipBoard.TransitionDuration` | src/js/modules/flipBoardAnimation.js:120-141 | A title with n cells takes (n − 1) × 120 + 1800 ms. |
| `FlipBoard.NextIndex` | src/js/modules/flipBoardAnimation.js:184 | The next index is the successor, wrapping from the last title to the first. |
| `FlipBoard.Start` | src/js/modules/flipBoardAnimation.js:162-174 | The banner starts settled on title 0, with that title as its ARIA label and the cursor as the last node. |
| `FlipBoard.ReducedMotionTick` | src/js/modules/flipBoardAnimation.js:183-188 | A reduced-motion tick moves to the next index and leaves the banner settled on that title, label included. The cursor is no longer in the container. |
| `FlipBoard.BeginTransition` | src/js/modules/flipBoardAnimation.js:204-208 | Starting a transition advances the index and shows the opening glyphs, but keeps the old ARIA label. |
| `FlipBoard.FinishTransition` | src/js/modules/flipBoardAnimation.js:208-211 | After the transition settles, the ARIA label becomes the plain current title. |
| `FlipBoard.AnimatedStep` | src/js/modules/flipBoardAnimation.js:202-215 | One loop iteration advances to the next title and ends settled on it, showing the upper-cased title followed by the cursor. |
| `FlipBoard.NextIndexMod` | src/js/modules/flipBoardAnimation.js:184-204 | Stepping from k mod n gives (k + 1) mod n. |
| `FlipBoard.RotationIsMod` | src/js/modules/flipBoardAnimation.js:184-204 | After k steps from title 0 the index is k mod n. |
| `FlipBoard.StepAdvancesRotation` | src/js/modules/flipBoardAnimation.js:183-215 | From index k mod n, either kind of step reaches (k + 1) mod n and labels it with that title. |
| `FlipBoard.ReducedRunRotates` | src/js/modules/flipBoardAnimation.js:183-188 | After k reduced-motion ticks the banner is settled on title k mod n. |
| `FlipBoard.AriaLabelAfterTicks` | src/js/modules/flipBoardAnimation.js:187 | After k ticks the ARIA label is title k mod n. |
| `FlipBoard.ConfiguredTiming` | src/js/modules/flipBoardAnimation.js:7-16 | With the configured constants a cell shows 9 frames and settles after 1800 ms. The charset has 46 glyphs, there are 6 titles, and the first label is "UI Designer". |
| `Lightbox.BuildDescription` | src/js/modules/lightgallery.js:190-199 | Both texts give an alt paragraph then a caption paragraph. Alt alone gives its paragraph. A caption alone is returned bare. Neither gives "". |
| `Lightbox.DescriptionContents` | src/js/modules/lightgallery.js:190-199 | The description is empty exactly when both inputs are. The alt text follows the opening alt tag and comes first. With both inputs, the caption ends the description inside its paragraph. |
| `Lightbox.UnwrappedCaptionIsAmbiguous` | src/js/modules/lightgallery.js:195-196 | Because a caption alone is returned bare, a caption that is itself an alt paragraph gives the same description as an alt text with no caption. |
| `Lightbox.Group` | src/js/modules/lightgallery.js:50-57 | A group holds exactly the entries carrying its `data-gallery` name. |
| `Lightbox.GroupAppend` | src/js/modules/lightgallery.js:50-57 | The group of a concatenation is the concatenation of the groups. |
| `Lightbox.GroupOfUniform` | src/js/modules/lightgallery.js:50-57 | Entries that all carry one name form that group in full and no other. |
| `Lightbox.CarouselNamesDistinct` | src/js/modules/lightgallery.js:22 | Different carousels get different `carousel-i` names. |
| `Lightbox.InitCarouselGalleries` | src/js/modules/lightgallery.js:18-37 | Every image of carousel i, in order, gets group `carousel-i` and no `href`. Its description is built from its alt text and the carousel's trimmed caption. |
| `Lightbox.GroupOfCarousels` | src/js/modules/lightgallery.js:21-57 | Within the decorated carousels, the group named after carousel i is exactly that carousel's images. |
| `Lightbox.CarouselGroupsSeparate` | src/js/modules/lightgallery.js:18-59 | Opening an image of carousel i browses exactly that carousel's images, in order. |
| `Lightbox.InitStandaloneImages` | src/js/modules/lightgallery.js:64-91 | A figure without an image is skipped. Otherwise the image and its new anchor get the same attributes: class `glightbox-standalone`, the image's `src` as `href`, no group, and `description: ` followed by the description built from the alt text and the trimmed caption. |
| `Lightbox.StandaloneUngrouped` | src/js/modules/lightgallery.js:79-88 | No element decorated for a standalone figure carries a `data-gallery` group, so none belongs to any group. |
| `Lightbox.VideoSource` | src/js/modules/lightgallery.js:136 | A video's own `src` wins. Otherwise the nested source's `src` is used, or `undefined`. |
| `Lightbox.InitGalleryGrid` | src/js/modules/lightgallery.js:103-147 | No grid gives nothing. Otherwise each item yields a wrapped image exactly when it has one, and a video anchor exactly when it has a video. The image and its anchor both carry `description: ` followed by the description from the alt text and the trimmed caption. The video anchor carries the description from the `aria-label` and the caption. |
| `Lightbox.GridIsOneGroup` | src/js/modules/lightgallery.js:115-146 | Every element the grid binder marks forms one `gallery-grid` group: images, their anchors and video anchors. Image anchors link to the image. Video anchors link to the video's `src`, else the nested source's, else "undefined". |
| `Lightbox.GridImageListedTwice` | src/js/modules/lightgallery.js:119-128 | A grid image and its anchor are two different entries of `gallery-grid` with the same description, so the group lists the image twice. |
| `Lightbox.AccordionDescription` | src/js/modules/lightgallery.js:167 | The accordion description equals the general one with no caption. |
| `Lightbox.InitAccordionImages` | src/js/modules/lightgallery.js:160-177 | No accordion grid gives nothing. Otherwise each image is wrapped in an anchor to its `src` in group `accordion-gallery`, described from its alt text alone. |
| `Accordion.ClickMilestone` | src/js/modules/accordion.js:14-35 | A milestone without a header ignores clicks. Otherwise, after a click, class and attribute agree on every milestone and at most one is open. That one is the clicked milestone, exactly when it was closed before. |
| `Accordion.ClickOutcome` | src/js/modules/accordion.js:22-34 | Clicking an open milestone closes all. Clicking a closed one leaves exactly that one open. |
| `Accordion.DoubleClickCloses` | src/js/modules/accordion.js:22-34 | Two clicks on a closed milestone close everything, whatever was open before. |
| `Accordion.ClickAll` | src/js/modules/accordion.js:19-35 | Any click sequence keeps the number of milestones and which ones have headers. |
| `Accordion.ClicksKeepInvariant` | src/js/modules/accordion.js:19-35 | From a state with at most one milestone open and class and attribute agreeing, every click sequence keeps both. |
| `Accordion.InitCaseStudies` | src/js/modules/accordion.js:48-54 | Every accordion with content gets its content hidden. Nothing else changes. |
| `Accordion.ClickCaseStudy` | src/js/modules/accordion.js:59-77 | An accordion without content has no handler. Otherwise, after a click, content is shown exactly for the open accordion. At most one is open, and it is the clicked one, exactly when it was closed. |
| `Accordion.CaseStudyLifecycle` | src/js/modules/accordion.js:43-79 | After initialisation no content is shown. After the first click the shown content follows `is-open`. |
| `Navigation.SectionNavMapOrdered` | src/js/modules/navigation.js:17-30 | The table has three rows whose nav indices are 0, 1, 2, distinct and in declaration order. |
| `Navigation.UpdateActiveNav` | src/js/modules/navigation.js:35-45 | Item i has class `active` and `aria-current` exactly when i is the given index. |
| `Navigation.UpdateActiveNavProperties` | src/js/modules/navigation.js:35-45 | The update is idempotent and never leaves two items active. An out-of-range index leaves none active. |
| `Navigation.CheckActiveSection` | src/js/modules/navigation.js:50-72 | The check selects the first element, in table order then document order, whose top is at most 100 and whose bottom is at least 0.3 × the viewport height. It activates that row's nav item and stops. With no such element the nav items are unchanged. |
| `Navigation.FirstActiveUnique` | src/js/modules/navigation.js:55-70 | At most one position can be the first active one. |
| `SideNav.SectionId` | src/js/modules/side-nav-bar.js:53-58 | An existing id is kept. A missing one becomes `section-` followed by the numeral of index + 1, which has no leading zero. The id is never empty. |
| `SideNav.NumberLabel` | src/js/modules/side-nav-bar.js:70 | The number label is a numeral of at least two digits with value index + 1: "0d" below 10, exactly two digits below 100, and `String(n)` unchanged from 10 on. |
| `SideNav.LinkFor` | src/js/modules/side-nav-bar.js:61-79 | The link's `href` is `#` + id and its label is the title. Its `data-section-index` is `String(index)` and reads back as the index. |
| `SideNav.BuildNavigation` | src/js/modules/side-nav-bar.js:38-84 | The indicator comes first, then one link per section in order. Each section keeps its title and gets its final id. |
| `SideNav.BuildNavigationKeepsIds` | src/js/modules/side-nav-bar.js:51-80 | Sections with ids are untouched. Every link's index attribute and number read back as its position. |
| `SideNav.TargetId` | src/js/modules/side-nav-bar.js:149 | `substring(1)` is the text after the first character. |
| `SideNav.GetElementById` | src/js/modules/side-nav-bar.js:150 | The lookup finds the first element with the id, or none. The empty id matches nothing. |
| `SideNav.ClickLink` | src/js/modules/side-nav-bar.js:146-162 | With no target element nothing happens. Otherwise the scroll target plus 80 equals the element's top plus `scrollY`, and the pushed hash is `#` + id. |
| `SideNav.ClickReachesSection` | src/js/modules/side-nav-bar.js:65-161 | Link i's handler recovers exactly section i's id from its `href`. On any page, it scrolls to the first element carrying that id and pushes the link's own `href`. |
| `SideNav.IdCollision` | src/js/modules/side-nav-bar.js:53-58 | A first section authored as `section-2` and a second without an id both get `section-2`. The second link's click then scrolls to the first section's element. |
| `SideNav.UpdateActiveLink` | src/js/modules/side-nav-bar.js:121-134 | Exactly the link at the index is active. The indicator offset puts it at that link's top, and an index matching no link leaves the indicator unchanged. |
| `SideNav.UpdateActiveLinkStable` | src/js/modules/side-nav-bar.js:121-134 | A repeated update changes nothing. A valid index leaves exactly one link active. |
| `CarouselDots.JsMod` | src/js/modules/carousel-dots.js:48 | `%` by zero is NaN. A non-negative offset modulo a positive width lies in [0, width). |
| `CarouselDots.Round` | src/js/modules/carousel-dots.js:51 | `Math.round(x)` lies in (x − 0.5, x + 0.5]. |
| `CarouselDots.Init` | src/js/modules/carousel-dots.js:28-29 | A slideshow starts on dot 0 with no resume timer pending. |
| `CarouselDots.SetActiveDot` | src/js/modules/carousel-dots.js:31-37 | Strict equality with the tracked index is a no-op. Otherwise the index is tracked and dot j is active exactly when j is the index; NaN matches no dot. |
| `CarouselDots.SetActiveDotIdempotent` | src/js/modules/carousel-dots.js:31-37 | A repeated call shows the same dots. For an integer index it is a no-op. |
| `CarouselDots.DeriveIndex` | src/js/modules/carousel-dots.js:40-51 | The derived index is NaN exactly for a strip without width. Otherwise it lies in [0, slideCount). |
| `CarouselDots.RoundedBelow` | src/js/modules/carousel-dots.js:49-51 | The offset within one pass, divided by the slide width and rounded, lies in [0, slideCount]. |
| `CarouselDots.DeriveIndexInFirstPass` | src/js/modules/carousel-dots.js:43-51 | An offset in the first pass that is exactly k slide widths gives index k. |
| `CarouselDots.DeriveIndexOfTarget` | src/js/modules/carousel-dots.js:43-76 | With the strip snapped to slide k, the frame formula reads back k. |
| `CarouselDots.ClearTimeout` | src/js/modules/carousel-dots.js:81 | Clearing removes exactly the timer with that handle. |
| `CarouselDots.WriteTranslate` | src/js/modules/carousel-dots.js:76 | A non-negative target writes `translateX(-x)`. A negative one writes an invalid value and leaves the transform unchanged. |
| `CarouselDots.Resume` | src/js/modules/carousel-dots.js:82-89 | Resuming clears the inline transform and animation and sets the delay to −(progress × 30) s. A NaN or negative progress sets no delay. |
| `CarouselDots.ResumeProgress` | src/js/modules/carousel-dots.js:69-84 | The resume progress is NaN for a strip without width, otherwise k / slideCount. |
| `CarouselDots.ClickDot` | src/js/modules/carousel-dots.js:61-90 | A NaN or ≥ slideCount `data-slide` changes nothing. An accepted k stops the marquee, writes the snap transform and calls `setActiveDot(k)`: dot k becomes active unless k is already the tracked index. It clears the pending resume before scheduling a new one 3000 ms later. |
| `CarouselDots.ClickShowsSlide` | src/js/modules/carousel-dots.js:62-78 | A click on dot k ≥ 0 moves the strip to −k slide widths, where the frame formula reads back k. Exactly dot k becomes active, unless k is already the tracked index. |
| `CarouselDots.ClickThenResume` | src/js/modules/carousel-dots.js:81-89 | After a click on dot k and its resume, no timer is pending. The marquee restarts k / n × 30 s into its cycle, not at 0. |
| `CarouselDots.NegativeSlideAccepted` | src/js/modules/carousel-dots.js:62-78 | `data-slide="-1"` passes the guard. Until the next animation frame no dot is active, and the inline offset is unchanged. |
| `CarouselDots.Fire` | src/js/modules/carousel-dots.js:82-89 | Firing removes that timer from the pending list and resumes the marquee. |
| `CarouselDots.ClickKeepsOneResume` | src/js/modules/carousel-dots.js:81-82 | Because each click clears before it sets, at most one resume is ever pending, and `resumeTimer` holds its handle. |
| `CarouselDots.FireKeepsOneResume` | src/js/modules/carousel-dots.js:82-89 | Firing the pending resume leaves none pending. |
| `CarouselDots.SlideAlt` | src/js/modules/carousel-dots.js:114-121 | Videos and images contribute their `alt` attribute or "". Other elements contribute "". |
| `CarouselDots.LightboxElements` | src/js/modules/carousel-dots.js:106-123 | One element per original slide, in order. It is a 900 px video exactly for VIDEO tags and an image otherwise, with the slide's `src` and alt-based description. |
| `CarouselDots.FirstActive` | src/js/modules/carousel-dots.js:138 | This is the first dot carrying `active`, or none. |
| `CarouselDots.Tap` | src/js/modules/carousel-dots.js:132-142 | A tap is ignored above 768 px or on the dot strip. Otherwise it opens at the first active dot's `data-slide`, or at 0. |
| `CarouselDots.TapAfterClick` | src/js/modules/carousel-dots.js:61-141 | After a click on dot k, a mobile tap opens the lightbox at slide k, unless k is already the tracked index. |
| `CarouselDots.Opened` | src/js/modules/carousel-dots.js:141 | `openAt(k)` for k inside the element list shows element k. |
| `CarouselDots.TapOpensClickedSlide` | src/js/modules/carousel-dots.js:102-141 | After a click on dot k that is not a repeat, a mobile tap opens the lightbox on the element built from slide k: a video exactly when slide k is one, with its source and alt text. |
| `CarouselDots.StaleMarkupDot` | src/js/modules/carousel-dots.js:28-57 | With the markup marking dot 1 active, and while every frame so far has derived index 0, the dots are as in the markup and a tap opens slide 1. A click on dot 0 then changes no dot, and a tap after it still opens slide 1. |
| `CarouselDots.AnimationFrame` | src/js/modules/carousel-dots.js:40-57 | One frame changes only the dots. Without a strip width every dot is cleared. Otherwise, unless the derived index is already tracked, exactly the dot at the derived index in [0, slideCount) is active. |
| `CarouselDots.ZeroFramesKeepDots` | src/js/modules/carousel-dots.js:28-57 | Any number of frames that all derive index 0 leave a slideshow tracking 0 unchanged. |
| `CarouselDots.FrameResyncsStaleDot` | src/js/modules/carousel-dots.js:28-78 | A frame deriving a non-zero index makes exactly that dot active. A click on dot 0 after it makes dot 0 the only active dot, and a tap opens slide 0. |
| `CarouselDots.FrameAfterNegativeSlide` | src/js/modules/carousel-dots.js:40-78 | After `data-slide="-1"` is accepted, the next frame with a strip width makes exactly one dot active, at an index in [0, slideCount). |

## Left out

- `icon-animation.js`, `scroll-hinter.js`, `main.js` and the build configuration are not part of this model.
- Registration with the lightbox library is not modelled. This covers the `GLightbox({...})` calls, the `nth-of-type` selectors and the second `uniqueGalleries` pass. Gallery membership is modelled instead through `data-gallery` (`Lightbox.Group`).
- The browser's event loop is not modelled: `setTimeout`/`setInterval`, `requestAnimationFrame`, promises, `sleep`, and the endless `while (true)`. Time in the banner is computed as millisecond offsets, and loop iterations are steps. The carousel's frame loop is a sequence of `AnimationFrame` steps, each given the marquee offset the browser would report. When frames run relative to clicks is up to the caller.
- `Lightbox.StandaloneUngrouped`: what the viewer does with ungrouped elements is not modelled. One selector call matches every standalone image and anchor on the page, and whether each then opens alone is decided by the viewer.
- The initial 500 ms cursor delay, the cursor's visibility class and the `flipping` class are not modelled. They only affect appearance.
- The intersection observer is not modelled, and its reported section index is an input to `SideNav.UpdateActiveLink`. So are the scroll listener's debounce timers in `navigation.js` and the 300 ms reveal of the side navigation.
- `CarouselDots.LightboxElements`: the element's `src` property is an input. URL resolution against the page is not modelled, and the unused `slideshow-i` gallery name is dropped.
- Inline animation longhands are collapsed in the carousel. `animationPlayState = 'paused'` is followed by `animation = 'none'`, which resets it, so the model records only that the marquee is stopped.
- `CarouselDots.Opened`: what the viewer does with a start index outside the element list is not modelled.
- Floating point is not modelled: lengths are exact reals. So `Math.round` on halves, `%` on non-integers and `parseInt` beyond 2^53 follow exact arithmetic.
- Unicode is covered only in part:
  - `toUpperCase` is modelled on ASCII letters only, so other characters keep their case.
  - `trim` recognises ASCII white space, the no-break space and the byte-order mark only.
  - `parseInt` skips leading white space from that same set only.
  - `split('')` in JavaScript splits into UTF-16 code units. A Dafny `char` is a Unicode scalar value, so a character outside the Basic Multilingual Plane is one cell here and two in the browser.
- Nothing in the source escapes HTML, so the descriptions are plain string concatenations and no escaping appears in the model.

=== FILE: accordion.dfy ===
/** The exclusive-open accordions (src/js/modules/accordion.js).

    Two click handlers share one rule: remember whether the clicked accordion
    was open, close every accordion of the set, then reopen the clicked one if
    it was closed. Milestones track the `is-open` class and the `open`
    attribute; case-study accordions track the `is-open` class and the inline
    `display` of their content. */
module Accordion {
  import opened Wrappers

  // ---------------------------------------------------------------------------
  // Milestones

  /** A `.milestone`: whether it has a `.milestone-header` (only then is a click
      handler attached), its `is-open` class and its `open` attribute. */
  datatype Milestone = Milestone(hasHeader: bool, isOpen: bool, openAttr: bool)

  /** At most one milestone carries `is-open`. */
  predicate AtMostOneOpen(ms: seq<Milestone>) {
    forall i, j :: 0 <= i < |ms| && 0 <= j < |ms| && ms[i].isOpen && ms[j].isOpen ==> i == j
  }

  /** The class and the attribute agree on every milestone. */
  predicate OpenAgrees(ms: seq<Milestone>) {
    forall i :: 0 <= i < |ms| ==> ms[i].isOpen == ms[i].openAttr
  }

  predicate AllClosed(ms: seq<Milestone>) {
    forall i :: 0 <= i < |ms| ==> !ms[i].isOpen && !ms[i].openAttr
  }

  /** A click on milestone k. Without a header there is no handler and nothing
      changes. Otherwise every milestone, with or without a header, loses
      `is-open` and `open`, and milestone k gets both back exactly when it was
      not open before the click. */
  function ClickMilestone(ms: seq<Milestone>, k: nat): (r: seq<Milestone>)
    requires k < |ms|
    ensures |r| == |ms|
    ensures forall i :: 0 <= i < |ms| ==> r[i].hasHeader == ms[i].hasHeader
    ensures !ms[k].hasHeader ==> r == ms
    ensures ms[k].hasHeader ==> OpenAgrees(r) && AtMostOneOpen(r)
    ensures ms[k].hasHeader ==> forall i :: 0 <= i < |ms| ==> (r[i].isOpen <==> i == k && !ms[k].isOpen)
  {
    if !ms[k].hasHeader then ms
    else
      var wasOpen := ms[k].isOpen;
      var closed := seq(|ms|, i requires 0 <= i < |ms| => ms[i].(isOpen := false, openAttr := false));
      if wasOpen then closed
      else closed[k := closed[k].(isOpen := true, openAttr := true)]
  }

  /** Clicking an open milestone closes them all; clicking a closed one leaves
      exactly that one open. */
  lemma ClickOutcome(ms: seq<Milestone>, k: nat)
    requires k < |ms| && ms[k].hasHeader
    ensures ms[k].isOpen ==> AllClosed(ClickMilestone(ms, k))
    ensures !ms[k].isOpen ==> forall i :: 0 <= i < |ms| ==>
              (ClickMilestone(ms, k)[i].isOpen <==> i == k)
  {
  }

  /** Two clicks in a row on a closed milestone close everything, whatever the
      other milestones showed before. */
  lemma DoubleClickCloses(ms: seq<Milestone>, k: nat)
    requires k < |ms| && ms[k].hasHeader && !ms[k].isOpen
    ensures AllClosed(ClickMilestone(ClickMilestone(ms, k), k))
  {
    var once := ClickMilestone(ms, k);
    assert once[k].isOpen;
  }

  /** A sequence of clicks, applied in order. */
  function ClickAll(ms: seq<Milestone>, clicks: seq<nat>): (r: seq<Milestone>)
    requires forall j :: 0 <= j < |clicks| ==> clicks[j] < |ms|
    ensures |r| == |ms|
    ensures forall i :: 0 <= i < |ms| ==> r[i].hasHeader == ms[i].hasHeader
    decreases |clicks|
  {
    if |clicks| == 0 then ms
    else ClickAll(ClickMilestone(ms, clicks[0]), clicks[1..])
  }

  /** Once the milestones satisfy both invariants, every further click keeps them. */
  lemma {:induction false} ClicksKeepInvariant(ms: seq<Milestone>, clicks: seq<nat>)
    requires forall j :: 0 <= j < |clicks| ==> clicks[j] < |ms|
    requires AtMostOneOpen(ms) && OpenAgrees(ms)
    ensures AtMostOneOpen(ClickAll(ms, clicks)) && OpenAgrees(ClickAll(ms, clicks))
    decreases |clicks|
  {
    if |clicks| > 0 {
      var next := ClickMilestone(ms, clicks[0]);
      ClicksKeepInvariant(next, clicks[1..]);
    }
  }

  // ---------------------------------------------------------------------------
  // Case-study accordions

  /** The inline `display` of an accordion's content: never set, `none` or `block`. */
  datatype Display = Unset | DisplayNone | DisplayBlock

  /** A `.cs-line-breaker.accordion`: its `.accordion-content`'s display when it
      has one (only then is a click handler attached), and its `is-open` class. */
  datatype CaseStudy = CaseStudy(content: Option<Display>, isOpen: bool)

  /** `initCaseStudyAccordions`: every content starts hidden. */
  function InitCaseStudies(accs: seq<CaseStudy>): (r: seq<CaseStudy>)
    ensures |r| == |accs|
    ensures forall i :: 0 <= i < |accs| ==>
              r[i].isOpen == accs[i].isOpen
              && r[i].content.Some? == accs[i].content.Some?
              && (r[i].content.Some? ==> r[i].content.value == DisplayNone)
  {
    seq(|accs|, i requires 0 <= i < |accs| =>
      if accs[i].content.Some? then accs[i].(content := Some(DisplayNone)) else accs[i])
  }

  /** Content is shown exactly for the accordions carrying `is-open`, and at most
      one accordion carries it. */
  predicate ShownIffOpen(accs: seq<CaseStudy>) {
    && (forall i :: 0 <= i < |accs| && accs[i].content.Some? ==>
          (accs[i].content.value == DisplayBlock <==> accs[i].isOpen)
          && accs[i].content.value != Unset)
    && (forall i, j :: 0 <= i < |accs| && 0 <= j < |accs| && accs[i].isOpen && accs[j].isOpen ==> i == j)
  }

  /** A click on case-study accordion k. Without content there is no handler.
      Otherwise every content is hidden and every `is-open` removed, then k's
      content is shown and k marked open exactly when it was not open before. */
  function ClickCaseStudy(accs: seq<CaseStudy>, k: nat): (r: seq<CaseStudy>)
    requires k < |accs|
    ensures |r| == |accs|
    ensures forall i :: 0 <= i < |accs| ==> r[i].content.Some? == accs[i].content.Some?
    ensures accs[k].content.None? ==> r == accs
    ensures accs[k].content.Some? ==> ShownIffOpen(r)
    ensures accs[k].content.Some? ==> forall i :: 0 <= i < |accs| ==> (r[i].isOpen <==> i == k && !accs[k].isOpen)
  {
    if accs[k].content.None? then accs
    else
      var wasOpen := accs[k].isOpen;
      var closed := seq(|accs|, i requires 0 <= i < |accs| =>
        CaseStudy(if accs[i].content.Some? then Some(DisplayNone) else None, false));
      if wasOpen then closed
      else closed[k := CaseStudy(Some(DisplayBlock), true)]
  }

  /** After initialisation no content is shown, and from there on the display
      follows `is-open` after every click. */
  lemma CaseStudyLifecycle(accs: seq<CaseStudy>, k: nat)
    requires k < |accs|
    ensures var init := InitCaseStudies(accs);
            forall i :: 0 <= i < |accs| && init[i].content.Some? ==> init[i].content.value != DisplayBlock
    ensures InitCaseStudies(accs)[k].content.Some? ==>
              var r := ClickCaseStudy(InitCaseStudies(accs), k);
              ShownIffOpen(r)
              && forall i :: 0 <= i < |accs| && r[i].content.Some? ==>
                   (r[i].content.value == DisplayBlock <==> i == k && !accs[k].isOpen)
  {
  }
}

=== FILE: carousel_dots.dfy ===
/** Carousel dots kept in step with a looping marquee
    (src/js/modules/carousel-dots.js).

    Each frame the active slide is derived from the strip's horizontal
    offset; a dot click stops the marquee, snaps the strip to that slide and
    schedules one resume; on narrow viewports a tap opens the lightbox at the
    active slide. The computed transform, the strip's `scrollWidth`, the
    viewport width and the firing of timers are inputs. Lengths are reals. */
module CarouselDots {
  import opened Wrappers
  import opened Text

  const ResumeDelay: nat := 3000
  const MobileBreakpoint: int := 768
  /** The marquee's cycle in seconds, by which the resume progress is scaled. */
  const CycleSeconds: real := 30.0

  // ---------------------------------------------------------------------------
  // JavaScript arithmetic on reals

  function Abs(x: real): (r: real)
    ensures r >= 0.0 && (r == x || r == -x)
  {
    if x < 0.0 then -x else x
  }

  /** Truncation toward zero. */
  function Trunc(x: real): (t: int)
    ensures x >= 0.0 ==> t as real <= x < t as real + 1.0
    ensures x < 0.0 ==> t as real - 1.0 < x <= t as real
  {
    if x >= 0.0 then x.Floor else -((-x).Floor)
  }

  /** `x % m` on numbers: NaN (None) for a zero divisor, otherwise the
      remainder of truncated division, which has the sign of `x`. */
  function JsMod(x: real, m: real): (r: Option<real>)
    ensures m == 0.0 <==> r.None?
    ensures x >= 0.0 && m > 0.0 ==> 0.0 <= r.value < m
  {
    if m == 0.0 then None
    else
      var t := Trunc(x / m);
      ModBounds(x, m, t);
      Some(x - m * t as real)
  }

  lemma ModBounds(x: real, m: real, t: int)
    requires m != 0.0 && t == Trunc(x / m)
    ensures x >= 0.0 && m > 0.0 ==> 0.0 <= x - m * t as real < m
  {
    if x >= 0.0 && m > 0.0 {
      var q := x / m;
      DivNonNegative(x, m);
      assert m * q == x;
      Bracket(m, q, t as real, x);
    }
  }

  /** If `tr <= q < tr + 1` then `m·q - m·tr` lies in [0, m). */
  lemma Bracket(m: real, q: real, tr: real, x: real)
    requires m > 0.0 && tr <= q < tr + 1.0 && m * q == x
    ensures 0.0 <= x - m * tr < m
  {
    var f := q - tr;
    MulUnit(m, f);
    assert m * f == m * q - m * tr;
    assert x - m * tr == m * f;
  }

  lemma MulUnit(m: real, f: real)
    requires m > 0.0 && 0.0 <= f < 1.0
    ensures 0.0 <= m * f < m
  {
  }

  lemma MulStrict(c: real, a: real, b: real)
    requires c > 0.0 && a < b
    ensures c * a < c * b
  {
  }

  lemma MulNonNegative(a: real, b: real)
    requires a >= 0.0 && b >= 0.0
    ensures a * b >= 0.0
  {
  }

  lemma DivNonNegative(x: real, m: real)
    requires x >= 0.0 && m > 0.0
    ensures x / m >= 0.0
    ensures x > 0.0 ==> x / m > 0.0
  {
  }

  lemma DivStrict(a: real, b: real, c: real)
    requires c > 0.0 && a < b
    ensures a / c < b / c
  {
  }

  lemma DivBack(w: real, n: real)
    requires w > 0.0 && n > 0.0
    ensures w / (w / n) == n
    ensures (w / n) * n == w
  {
  }

  lemma MulDiv(a: real, k: real)
    requires a > 0.0
    ensures (a * k) / a == k
  {
  }

  lemma Ratio(a: real, k: real, n: real)
    requires a > 0.0 && n > 0.0
    ensures (a * k) / (a * n) == k / n
  {
  }

  /** `Math.round`: to the nearest integer, halves upward. */
  function Round(x: real): (k: int)
    ensures x - 0.5 < k as real <= x + 0.5
  {
    (x + 0.5).Floor
  }

  // ---------------------------------------------------------------------------
  // Dots

  /** A `.carousel-dot`: its `active` class and its `data-slide` attribute. */
  datatype Dot = Dot(active: bool, slide: Option<string>)

  /** The tracked index and the dots. */
  datatype DotState = DotState(activeDotIndex: Num, dots: seq<Dot>)

  /** `setActiveDot`: nothing happens when `index` is strictly equal to the
      tracked one; otherwise it is tracked and exactly the dot at `index` is
      active (none for NaN or an index without a dot). */
  function SetActiveDot(s: DotState, index: Num): (r: DotState)
    ensures StrictEq(index, s.activeDotIndex) ==> r == s
    ensures !StrictEq(index, s.activeDotIndex) ==>
              r.activeDotIndex == index && |r.dots| == |s.dots|
              && forall j :: 0 <= j < |s.dots| ==>
                   r.dots[j].slide == s.dots[j].slide
                   && (r.dots[j].active <==> index.Int? && j == index.value)
  {
    if StrictEq(index, s.activeDotIndex) then s
    else
      DotState(index, seq(|s.dots|, j requires 0 <= j < |s.dots| =>
        s.dots[j].(active := index.Int? && j == index.value)))
  }

  /** The dot display after a call depends only on the index: calling twice
      with the same index shows the same dots as calling once, and an integer
      index is then tracked, so the second call is a no-op. */
  lemma SetActiveDotIdempotent(s: DotState, index: Num)
    ensures SetActiveDot(SetActiveDot(s, index), index).dots == SetActiveDot(s, index).dots
    ensures index.Int? ==> SetActiveDot(SetActiveDot(s, index), index) == SetActiveDot(s, index)
  {
  }

  // ---------------------------------------------------------------------------
  // Index from the marquee offset

  /** `updateActiveDot`'s formula: the absolute horizontal offset `m41` of the
      strip, wrapped into one pass of the original slides (half the strip's
      `scrollWidth`), divided by the width of one slide, rounded, taken modulo
      the slide count. A strip without width yields NaN. */
  function DeriveIndex(m41: real, scrollWidth: nat, slideCount: nat): (r: Num)
    requires slideCount > 0
    ensures scrollWidth == 0 <==> r.NaN?
    ensures r.Int? ==> 0 <= r.value < slideCount
  {
    var totalWidth := scrollWidth as real / 2.0;
    match JsMod(Abs(m41), totalWidth)
    case None => NaN
    case Some(wrapped) =>
      var slideWidth := totalWidth / slideCount as real;
      var k := Round(wrapped / slideWidth);
      RoundedBelow(wrapped, totalWidth, slideCount, k);
      Int(k % slideCount)
  }

  /** The rounded slide position lies in [0, n]. */
  lemma RoundedBelow(wrapped: real, totalWidth: real, n: nat, k: int)
    requires n > 0 && totalWidth > 0.0 && 0.0 <= wrapped < totalWidth
    requires k == Round(wrapped / (totalWidth / n as real))
    ensures 0 <= k <= n
  {
    var slideWidth := totalWidth / n as real;
    DivNonNegative(totalWidth, n as real);
    DivNonNegative(wrapped, slideWidth);
    DivStrict(wrapped, totalWidth, slideWidth);
    DivBack(totalWidth, n as real);
    assert 0.0 <= wrapped / slideWidth < n as real;
  }

  /** The horizontal offset a click on dot k snaps the strip to: k slide
      widths, a slide being one n-th of half the strip. */
  function TargetX(scrollWidth: nat, slideCount: nat, k: int): real
    requires slideCount > 0
  {
    (scrollWidth as real / 2.0) / slideCount as real * k as real
  }

  /** For 0 <= k < n the target offset lies inside the first pass and is k
      slide widths. */
  lemma TargetInFirstPass(scrollWidth: nat, slideCount: nat, k: nat)
    requires slideCount > 0 && scrollWidth > 0 && k < slideCount
    ensures var w := scrollWidth as real / 2.0;
            var x := TargetX(scrollWidth, slideCount, k);
            0.0 <= x < w && x / (w / slideCount as real) == k as real
  {
    var w := scrollWidth as real / 2.0;
    var sw := w / slideCount as real;
    DivNonNegative(w, slideCount as real);
    MulNonNegative(sw, k as real);
    MulStrict(sw, k as real, slideCount as real);
    DivBack(w, slideCount as real);
    MulDiv(sw, k as real);
  }

  /** With the strip inside the first pass at exactly k slide widths, the
      formula reads back k. */
  lemma DeriveIndexInFirstPass(x: real, scrollWidth: nat, slideCount: nat, k: nat)
    requires slideCount > 0 && scrollWidth > 0 && k < slideCount
    requires 0.0 <= x < scrollWidth as real / 2.0
    requires x / ((scrollWidth as real / 2.0) / slideCount as real) == k as real
    ensures DeriveIndex(-x, scrollWidth, slideCount) == Int(k)
  {
    var w := scrollWidth as real / 2.0;
    assert Abs(-x) == x;
    FirstPassMod(x, w);
    assert Round(k as real) == k;
    assert k % slideCount == k;
  }

  /** An offset inside the first pass is its own remainder. */
  lemma FirstPassMod(x: real, w: real)
    requires 0.0 <= x < w
    ensures JsMod(x, w) == Some(x)
  {
    var q := x / w;
    DivNonNegative(x, w);
    DivStrict(x, w, w);
    assert w / w == 1.0;
    assert Trunc(q) == 0;
  }

  /** Round trip: with the strip snapped to slide k the formula reads back k,
      so the frame tracker agrees with the clicked dot. */
  lemma DeriveIndexOfTarget(scrollWidth: nat, slideCount: nat, k: nat)
    requires slideCount > 0 && scrollWidth > 0 && k < slideCount
    ensures DeriveIndex(-TargetX(scrollWidth, slideCount, k), scrollWidth, slideCount) == Int(k)
  {
    TargetInFirstPass(scrollWidth, slideCount, k);
    DeriveIndexInFirstPass(TargetX(scrollWidth, slideCount, k), scrollWidth, slideCount, k);
  }

  // ---------------------------------------------------------------------------
  // The slideshow's inline style and the resume timer

  /** The inline animation: the stylesheet's marquee (with an inline
      `animation-delay` in seconds, when one is set) or `animation: none`. */
  datatype Animation = Marquee(delay: Option<real>) | Stopped

  /** One scheduled resume: its id, its delay in ms and the progress it will
      hand to the marquee (None when it is NaN). */
  datatype Timer = Timer(id: nat, delay: nat, progress: Option<real>)

  /** One wired slideshow: its dots, its inline animation and
      `translateX` offset, the handle in `resumeTimer`, the timers still
      pending and the next handle the host will hand out. */
  datatype Slideshow = Slideshow(
    dots: DotState,
    animation: Animation,
    translateX: Option<real>,
    resumeTimer: Option<nat>,
    pending: seq<Timer>,
    nextId: nat)

  function Init(dots: seq<Dot>): (s: Slideshow)
    ensures s.dots.activeDotIndex == Int(0) && s.dots.dots == dots
    ensures s.pending == [] && s.resumeTimer.None?
  {
    Slideshow(DotState(Int(0), dots), Marquee(None), None, None, [], 0)
  }

  /** One run of `updateActiveDot`: the index derived from the marquee's
      current offset goes through `setActiveDot`; nothing else changes. With
      no strip width the index is NaN, which matches no dot and never equals
      the tracked index, so every dot is cleared. */
  function AnimationFrame(s: Slideshow, m41: real, scrollWidth: nat, slideCount: nat): (r: Slideshow)
    requires slideCount > 0
    ensures r.(dots := s.dots) == s
    ensures |r.dots.dots| == |s.dots.dots|
    ensures scrollWidth == 0 ==> forall j :: 0 <= j < |r.dots.dots| ==> !r.dots.dots[j].active
    ensures scrollWidth > 0 && !StrictEq(DeriveIndex(m41, scrollWidth, slideCount), s.dots.activeDotIndex) ==>
              && r.dots.activeDotIndex.Int?
              && 0 <= r.dots.activeDotIndex.value < slideCount
              && forall j :: 0 <= j < |r.dots.dots| ==> (r.dots.dots[j].active <==> j == r.dots.activeDotIndex.value)
    ensures StrictEq(DeriveIndex(m41, scrollWidth, slideCount), s.dots.activeDotIndex) ==> r == s
  {
    s.(dots := SetActiveDot(s.dots, DeriveIndex(m41, scrollWidth, slideCount)))
  }

  /** The slideshow after one frame per offset, in order. */
  function Frames(s: Slideshow, offsets: seq<real>, scrollWidth: nat, slideCount: nat): Slideshow
    requires slideCount > 0
    decreases |offsets|
  {
    if |offsets| == 0 then s
    else Frames(AnimationFrame(s, offsets[0], scrollWidth, slideCount), offsets[1..], scrollWidth, slideCount)
  }

  /** At most one resume is pending, and when one is, `resumeTimer` holds its
      handle; every handle in use is below the next one to be handed out. */
  predicate OneResumePending(s: Slideshow) {
    && |s.pending| <= 1
    && (|s.pending| == 1 ==> s.resumeTimer == Some(s.pending[0].id))
    && (forall j :: 0 <= j < |s.pending| ==> s.pending[j].id < s.nextId)
    && (s.resumeTimer.Some? ==> s.resumeTimer.value < s.nextId)
  }

  /** `clearTimeout(handle)`: the timer with that handle no longer fires. */
  function ClearTimeout(pending: seq<Timer>, handle: Option<nat>): (r: seq<Timer>)
    ensures forall j :: 0 <= j < |r| ==> r[j] in pending && Some(r[j].id) != handle
    ensures forall t :: t in pending && Some(t.id) != handle ==> t in r
    ensures |r| <= |pending|
    decreases |pending|
  {
    if |pending| == 0 then []
    else
      var rest := ClearTimeout(pending[1..], handle);
      if Some(pending[0].id) == handle then rest else [pending[0]] + rest
  }

  /** CSS rejects `translateX(--Npx)`: writing a negative target offset after
      the minus sign leaves the inline transform as it was. */
  function WriteTranslate(current: Option<real>, targetX: real): (r: Option<real>)
    ensures targetX >= 0.0 ==> r == Some(-targetX)
    ensures targetX < 0.0 ==> r == current
  {
    if targetX >= 0.0 then Some(-targetX) else current
  }

  /** `resumeTimer` fires: the inline transform and animation are cleared and
      the marquee restarts `progress × 30` seconds into its cycle; a NaN or
      negative progress writes an invalid delay, so none is set. */
  function Resume(s: Slideshow, progress: Option<real>): (r: Slideshow)
    ensures r.translateX.None? && r.animation.Marquee?
    ensures progress.Some? && progress.value >= 0.0 ==> r.animation.delay == Some(-(progress.value * CycleSeconds))
    ensures !(progress.Some? && progress.value >= 0.0) ==> r.animation.delay.None?
    ensures r.dots == s.dots && r.pending == s.pending && r.resumeTimer == s.resumeTimer
  {
    var delay := if progress.Some? && progress.value >= 0.0 then Some(-(progress.value * CycleSeconds)) else None;
    s.(animation := Marquee(delay), translateX := None)
  }

  /** Whether a dot's `data-slide` passes the click guard: only NaN and values
      at or past the slide count are turned away. */
  predicate Accepted(target: Num, slideCount: nat) {
    target.Int? && target.value < slideCount
  }

  /** The progress the resume will hand back, `targetX / totalWidth`: NaN
      (None) for a strip without width, otherwise `k / slideCount`. */
  function ResumeProgress(scrollWidth: nat, slideCount: nat, k: int): (p: Option<real>)
    requires slideCount > 0
    ensures scrollWidth == 0 <==> p.None?
    ensures p.Some? ==> p.value == k as real / slideCount as real
  {
    var totalWidth := scrollWidth as real / 2.0;
    if totalWidth == 0.0 then None
    else
      var sw := totalWidth / slideCount as real;
      DivNonNegative(totalWidth, slideCount as real);
      DivBack(totalWidth, slideCount as real);
      Ratio(sw, k as real, slideCount as real);
      Some(TargetX(scrollWidth, slideCount, k) / totalWidth)
  }

  /** A click on a dot whose `data-slide` is `slide`. A rejected value changes
      nothing. An accepted index k stops the marquee, snaps the strip to slide
      k, makes k the active dot, cancels any pending resume and schedules a
      new one 3000 ms later. */
  function ClickDot(s: Slideshow, slide: Option<string>, scrollWidth: nat, slideCount: nat): (r: Slideshow)
    requires slideCount > 0
    ensures !Accepted(ParseIntAttr(slide), slideCount) ==> r == s
    ensures Accepted(ParseIntAttr(slide), slideCount) ==>
              var k := ParseIntAttr(slide).value;
              && r.animation == Stopped
              && r.translateX == WriteTranslate(s.translateX, TargetX(scrollWidth, slideCount, k))
              && r.dots == SetActiveDot(s.dots, Int(k))
              && r.resumeTimer == Some(s.nextId) && r.nextId == s.nextId + 1
              && r.pending == ClearTimeout(s.pending, s.resumeTimer)
                              + [Timer(s.nextId, ResumeDelay, ResumeProgress(scrollWidth, slideCount, k))]
  {
    var target := ParseIntAttr(slide);
    if !Accepted(target, slideCount) then s
    else
      var timer := Timer(s.nextId, ResumeDelay, ResumeProgress(scrollWidth, slideCount, target.value));
      Slideshow(
        SetActiveDot(s.dots, target),
        Stopped,
        WriteTranslate(s.translateX, TargetX(scrollWidth, slideCount, target.value)),
        Some(s.nextId),
        ClearTimeout(s.pending, s.resumeTimer) + [timer],
        s.nextId + 1)
  }

  /** A click on dot k ≥ 0 shows slide k: the strip moves to `-k` slide
      widths, where the frame formula reads back k, and exactly dot k becomes
      active (unless k was already the tracked index). */
  lemma ClickShowsSlide(s: Slideshow, k: nat, scrollWidth: nat, slideCount: nat)
    requires slideCount > 0 && scrollWidth > 0 && k < slideCount
    ensures var r := ClickDot(s, Some(Digits(k)), scrollWidth, slideCount);
            && r.translateX == Some(-TargetX(scrollWidth, slideCount, k))
            && DeriveIndex(r.translateX.value, scrollWidth, slideCount) == Int(k)
            && (!StrictEq(Int(k), s.dots.activeDotIndex) ==>
                  forall j :: 0 <= j < |r.dots.dots| ==> (r.dots.dots[j].active <==> j == k))
  {
    ParseIntDigits(k);
    assert ParseIntAttr(Some(Digits(k))) == Int(k);
    var x := TargetX(scrollWidth, slideCount, k);
    TargetInFirstPass(scrollWidth, slideCount, k);
    assert WriteTranslate(s.translateX, x) == Some(-x);
    DeriveIndexOfTarget(scrollWidth, slideCount, k);
  }

  /** Click on dot k, then let its resume fire: the inline offset is gone and
      the marquee restarts `k / n × 30` seconds into its cycle rather than at
      its start, with no resume left pending. */
  lemma ClickThenResume(s: Slideshow, k: nat, scrollWidth: nat, slideCount: nat)
    requires slideCount > 0 && scrollWidth > 0 && k < slideCount && OneResumePending(s)
    ensures var r := ClickDot(s, Some(Digits(k)), scrollWidth, slideCount);
            && |r.pending| == 1
            && Fire(r, 0).translateX.None?
            && Fire(r, 0).animation == Marquee(Some(-(k as real / slideCount as real * CycleSeconds)))
            && Fire(r, 0).pending == []
  {
    ParseIntDigits(k);
    assert ParseIntAttr(Some(Digits(k))) == Int(k);
    ClearOnlyPending(s.pending, s.resumeTimer);
    DivNonNegative(k as real, slideCount as real);
  }

  /** The guard has no lower bound: `data-slide="-1"` is accepted, no dot is
      active afterwards (there is no dot -1), and the strip keeps its inline
      offset because the written transform is invalid. */
  lemma NegativeSlideAccepted(s: Slideshow, scrollWidth: nat, slideCount: nat)
    requires slideCount > 0 && scrollWidth > 0 && s.dots.activeDotIndex != Int(-1)
    ensures Accepted(ParseIntAttr(Some("-1")), slideCount)
    ensures var r := ClickDot(s, Some("-1"), scrollWidth, slideCount);
            && r.translateX == s.translateX
            && r.dots.activeDotIndex == Int(-1)
            && forall j :: 0 <= j < |r.dots.dots| ==> !r.dots.dots[j].active
  {
    ParseIntNegative(1);
    assert Digits(1) == "1";
    assert "-" + Digits(1) == "-1";
    assert TargetX(scrollWidth, slideCount, -1) < 0.0;
  }

  /** Resume timer `j` fires: it leaves the pending list and resumes the marquee. */
  function Fire(s: Slideshow, j: nat): (r: Slideshow)
    requires j < |s.pending|
    ensures |r.pending| == |s.pending| - 1
    ensures forall t :: t in r.pending ==> t in s.pending
    ensures r.animation.Marquee? && r.translateX.None?
  {
    Resume(s.(pending := s.pending[..j] + s.pending[j + 1..]), s.pending[j].progress)
  }

  /** Clicks and firings keep at most one resume pending: every click clears
      the previous timer before setting a new one. */
  lemma ClickKeepsOneResume(s: Slideshow, slide: Option<string>, scrollWidth: nat, slideCount: nat)
    requires slideCount > 0 && OneResumePending(s)
    ensures OneResumePending(ClickDot(s, slide, scrollWidth, slideCount))
  {
    if Accepted(ParseIntAttr(slide), slideCount) {
      ClearOnlyPending(s.pending, s.resumeTimer);
    }
  }

  /** Clearing the handle of the only pending timer leaves none pending. */
  lemma ClearOnlyPending(pending: seq<Timer>, handle: Option<nat>)
    requires |pending| <= 1 && (|pending| == 1 ==> handle == Some(pending[0].id))
    ensures ClearTimeout(pending, handle) == []
  {
    if |pending| == 1 {
      assert pending[1..] == [];
    }
  }

  lemma FireKeepsOneResume(s: Slideshow, j: nat)
    requires j < |s.pending| && OneResumePending(s)
    ensures OneResumePending(Fire(s, j))
    ensures Fire(s, j).pending == []
  {
  }

  // ---------------------------------------------------------------------------
  // Mobile lightbox

  /** An original slide: its tag name, its `src` property and its `alt` attribute. */
  datatype Slide = Slide(tag: string, src: string, alt: Option<string>)

  /** An entry of the lightbox's element list. Videos are local, 900 px wide. */
  datatype LightboxElement =
    | VideoElement(href: string, width: nat, description: string)
    | ImageElement(href: string, altText: string, description: string)

  const VideoWidth: nat := 900

  /** The alt text a slide contributes: the attribute for videos and images,
      nothing for other elements (which have no `alt` property). */
  function SlideAlt(s: Slide): (a: string)
    ensures s.alt.None? ==> a == ""
    ensures (s.tag == "VIDEO" || s.tag == "IMG") && s.alt.Some? ==> a == s.alt.value
  {
    if s.tag == "VIDEO" || s.tag == "IMG" then s.alt.GetOr("") else ""
  }

  /** `initSlideshowLightbox`'s element list: one entry per original slide,
      in order, a video exactly for VIDEO elements. */
  function LightboxElements(slides: seq<Slide>): (r: seq<LightboxElement>)
    ensures |r| == |slides|
    ensures forall i :: 0 <= i < |slides| ==>
              (r[i].VideoElement? <==> slides[i].tag == "VIDEO")
              && r[i].href == slides[i].src
              && r[i].description == SlideAlt(slides[i])
              && (r[i].VideoElement? ==> r[i].width == VideoWidth)
              && (r[i].ImageElement? ==> r[i].altText == r[i].description)
  {
    seq(|slides|, i requires 0 <= i < |slides| =>
      if slides[i].tag == "VIDEO" then VideoElement(slides[i].src, VideoWidth, SlideAlt(slides[i]))
      else ImageElement(slides[i].src, SlideAlt(slides[i]), SlideAlt(slides[i])))
  }

  /** The first active dot, if any (`querySelector('.carousel-dot.active')`). */
  function FirstActive(dots: seq<Dot>): (r: Option<nat>)
    ensures r.Some? ==> r.value < |dots| && dots[r.value].active
                        && forall j :: 0 <= j < r.value ==> !dots[j].active
    ensures r.None? ==> forall j :: 0 <= j < |dots| ==> !dots[j].active
    decreases |dots|
  {
    if |dots| == 0 then None
    else if dots[0].active then Some(0)
    else
      match FirstActive(dots[1..])
      case None => None
      case Some(k) => Some(k + 1)
  }

  /** A tap on the container: ignored above the mobile breakpoint and on the
      dot strip; otherwise the index the lightbox opens at, read from the
      first active dot's `data-slide`, or 0 when no dot is active. */
  function Tap(innerWidth: int, onDots: bool, dots: seq<Dot>): (r: Option<Num>)
    ensures r.None? <==> innerWidth > MobileBreakpoint || onDots
    ensures r.Some? && FirstActive(dots).None? ==> r.value == Int(0)
    ensures r.Some? && FirstActive(dots).Some? ==> r.value == ParseIntAttr(dots[FirstActive(dots).value].slide)
  {
    if innerWidth > MobileBreakpoint || onDots then None
    else
      match FirstActive(dots)
      case None => Some(Int(0))
      case Some(j) => Some(ParseIntAttr(dots[j].slide))
  }

  /** After a click on dot k (with dots numbered by position), a mobile tap
      opens the lightbox at slide k. */
  lemma TapAfterClick(s: Slideshow, k: nat, scrollWidth: nat, slideCount: nat, innerWidth: int)
    requires slideCount > 0 && k < slideCount && k < |s.dots.dots| && innerWidth <= MobileBreakpoint
    requires forall j :: 0 <= j < |s.dots.dots| ==> s.dots.dots[j].slide == Some(Digits(j))
    requires !StrictEq(Int(k), s.dots.activeDotIndex)
    ensures Tap(innerWidth, false, ClickDot(s, Some(Digits(k)), scrollWidth, slideCount).dots.dots) == Some(Int(k))
  {
    ParseIntDigits(k);
    var r := ClickDot(s, Some(Digits(k)), scrollWidth, slideCount);
    var f := FirstActive(r.dots.dots);
    assert r.dots.dots[k].active;
    assert f == Some(k);
  }

  /** The element `openAt(start)` shows, for a start inside the list. What the
      viewer does with a start outside it is not part of this model (None). */
  function Opened(elements: seq<LightboxElement>, start: Num): (e: Option<LightboxElement>)
    ensures e.Some? <==> start.Int? && 0 <= start.value < |elements|
    ensures e.Some? ==> e.value == elements[start.value]
  {
    if start.Int? && 0 <= start.value < |elements| then Some(elements[start.value]) else None
  }

  /** After a click on dot k, a mobile tap opens the lightbox on the element
      built from original slide k: a video exactly when slide k is one, with
      slide k's source and alt text. */
  lemma TapOpensClickedSlide(s: Slideshow, slides: seq<Slide>, k: nat, scrollWidth: nat, innerWidth: int)
    requires |slides| > 0 && k < |slides| && k < |s.dots.dots| && innerWidth <= MobileBreakpoint
    requires forall j :: 0 <= j < |s.dots.dots| ==> s.dots.dots[j].slide == Some(Digits(j))
    requires !StrictEq(Int(k), s.dots.activeDotIndex)
    ensures var start := Tap(innerWidth, false, ClickDot(s, Some(Digits(k)), scrollWidth, |slides|).dots.dots);
            && start.Some?
            && var e := Opened(LightboxElements(slides), start.value);
               && e.Some?
               && (e.value.VideoElement? <==> slides[k].tag == "VIDEO")
               && e.value.href == slides[k].src
               && e.value.description == SlideAlt(slides[k])
  {
    TapAfterClick(s, k, scrollWidth, |slides|, innerWidth);
  }

  /** Frames that all derive index 0 leave a slideshow tracking 0 exactly as
      it was: the markup's active dot is never corrected by them. */
  lemma {:induction false} ZeroFramesKeepDots(s: Slideshow, offsets: seq<real>, scrollWidth: nat, slideCount: nat)
    requires slideCount > 0 && s.dots.activeDotIndex == Int(0)
    requires forall i :: 0 <= i < |offsets| ==> DeriveIndex(offsets[i], scrollWidth, slideCount) == Int(0)
    ensures Frames(s, offsets, scrollWidth, slideCount) == s
    decreases |offsets|
  {
    if |offsets| > 0 {
      assert AnimationFrame(s, offsets[0], scrollWidth, slideCount) == s;
      ZeroFramesKeepDots(s, offsets[1..], scrollWidth, slideCount);
    }
  }

  /** The tracked index starts at 0 whatever the markup marks active. When the
      markup marks dot 1 instead, then as long as no frame has derived an index
      other than 0, a tap opens slide 1, and a click on dot 0 is taken for a
      repeat and changes no dot, so dot 1 stays active and a tap still opens
      slide 1. */
  lemma StaleMarkupDot(dots: seq<Dot>, offsets: seq<real>, scrollWidth: nat, slideCount: nat, innerWidth: int)
    requires 2 <= |dots| && 0 < slideCount && innerWidth <= MobileBreakpoint
    requires !dots[0].active && dots[1].active
    requires forall j :: 0 <= j < |dots| ==> dots[j].slide == Some(Digits(j))
    requires forall i :: 0 <= i < |offsets| ==> DeriveIndex(offsets[i], scrollWidth, slideCount) == Int(0)
    ensures var f := Frames(Init(dots), offsets, scrollWidth, slideCount);
            && f.dots.dots == dots
            && Tap(innerWidth, false, f.dots.dots) == Some(Int(1))
    ensures var f := Frames(Init(dots), offsets, scrollWidth, slideCount);
            var r := ClickDot(f, Some(Digits(0)), scrollWidth, slideCount);
            && r.dots.dots == dots
            && r.animation == Stopped
            && Tap(innerWidth, false, r.dots.dots) == Some(Int(1))
  {
    ZeroFramesKeepDots(Init(dots), offsets, scrollWidth, slideCount);
    ParseIntDigits(0);
    ParseIntDigits(1);
    assert FirstActive(dots) == Some(1) by {
      assert FirstActive(dots[1..]) == Some(0);
    }
  }

  /** A frame deriving a non-zero index j corrects a stale markup dot: dot j
      becomes the only active dot, after which a click on dot 0 is no longer a
      repeat, makes dot 0 the only active dot, and a tap opens slide 0. */
  lemma FrameResyncsStaleDot(s: Slideshow, m41: real, scrollWidth: nat, slideCount: nat, innerWidth: int)
    requires 0 < slideCount && scrollWidth > 0 && innerWidth <= MobileBreakpoint
    requires s.dots.activeDotIndex == Int(0) && 2 <= |s.dots.dots|
    requires forall j :: 0 <= j < |s.dots.dots| ==> s.dots.dots[j].slide == Some(Digits(j))
    requires DeriveIndex(m41, scrollWidth, slideCount) != Int(0)
    ensures var f := AnimationFrame(s, m41, scrollWidth, slideCount);
            && f.dots.activeDotIndex == DeriveIndex(m41, scrollWidth, slideCount)
            && forall j :: 0 <= j < |f.dots.dots| ==> (f.dots.dots[j].active <==> j == f.dots.activeDotIndex.value)
    ensures var r := ClickDot(AnimationFrame(s, m41, scrollWidth, slideCount), Some(Digits(0)), scrollWidth, slideCount);
            && (forall j :: 0 <= j < |r.dots.dots| ==> (r.dots.dots[j].active <==> j == 0))
            && Tap(innerWidth, false, r.dots.dots) == Some(Int(0))
  {
    var f := AnimationFrame(s, m41, scrollWidth, slideCount);
    FrameKeepsSlides(s, m41, scrollWidth, slideCount);
    assert !StrictEq(Int(0), f.dots.activeDotIndex);
    ClickZeroOnly(f, scrollWidth, slideCount);
    TapAfterClick(f, 0, scrollWidth, slideCount, innerWidth);
  }

  /** A frame keeps every dot's `data-slide` value. */
  lemma FrameKeepsSlides(s: Slideshow, m41: real, scrollWidth: nat, slideCount: nat)
    requires slideCount > 0
    ensures var f := AnimationFrame(s, m41, scrollWidth, slideCount);
            |f.dots.dots| == |s.dots.dots|
            && forall j :: 0 <= j < |f.dots.dots| ==> f.dots.dots[j].slide == s.dots.dots[j].slide
  {
  }

  /** A click on dot 0 that is not a repeat leaves dot 0 the only active dot. */
  lemma ClickZeroOnly(s: Slideshow, scrollWidth: nat, slideCount: nat)
    requires slideCount > 0 && 1 <= |s.dots.dots|
    requires s.dots.dots[0].slide == Some(Digits(0))
    requires !StrictEq(Int(0), s.dots.activeDotIndex)
    ensures var r := ClickDot(s, Some(Digits(0)), scrollWidth, slideCount);
            forall j :: 0 <= j < |r.dots.dots| ==> (r.dots.dots[j].active <==> j == 0)
  {
    ParseIntDigits(0);
  }

  /** The cleared dots after an accepted negative `data-slide` last only until
      the next frame: with a strip width, that frame derives an index k in
      [0, slideCount) and makes dot k the only active dot. */
  lemma FrameAfterNegativeSlide(s: Slideshow, m41: real, scrollWidth: nat, slideCount: nat)
    requires slideCount > 0 && scrollWidth > 0 && s.dots.activeDotIndex != Int(-1)
    ensures var f := AnimationFrame(ClickDot(s, Some("-1"), scrollWidth, slideCount), m41, scrollWidth, slideCount);
            && f.dots.activeDotIndex.Int?
            && 0 <= f.dots.activeDotIndex.value < slideCount
            && forall j :: 0 <= j < |f.dots.dots| ==> (f.dots.dots[j].active <==> j == f.dots.activeDotIndex.value)
  {
    NegativeSlideAccepted(s, scrollWidth, slideCount);
  }
}

=== FILE: flip_board.dfy ===
/** The split-flap title banner (src/js/modules/flipBoardAnimation.js).

    A title is laid out as one span per non-space character with a single line
    break after the first word. A transition to the next title starts one cell
    per character, the k-th after k stagger delays; each cell shows
    `CycleCount` random glyphs and then its upper-cased target, one flip per
    glyph. The endless loop is modelled one step at a time; timers become the
    computed start times and `Math.random()` becomes an oracle of `Draw`s. */
module FlipBoard {
  import opened Wrappers
  import opened Text

  // ---------------------------------------------------------------------------
  // Configuration

  const Titles: seq<string> :=
    ["UI Designer", "Design Systems", "Product Thinking", "Atomic Design", "Variables Geek", "Vibe Coder"]
  const FlipDuration: nat := 200
  const CycleCount: nat := 8
  const StaggerDelay: nat := 120

  /** The glyphs a cell cycles through ('*' is listed twice, as in the source). */
  const Charset: string := "ABCDEFGHIJKLMNOPQRSTUVWXYZ*0123456789*!?@<>+- "

  /** A value returned by `Math.random()`. */
  type Draw = r: real | 0.0 <= r < 1.0

  // ---------------------------------------------------------------------------
  // Random glyphs

  /** The index `Math.floor(r * CHARSET.length)` used by `getRandomChar`. */
  function RandomIndex(r: Draw): (k: nat)
    ensures k < |Charset|
  {
    (r * |Charset| as real).Floor
  }

  /** `getRandomChar`: the glyph at a random index. */
  function GetRandomChar(r: Draw): (c: char)
    ensures c in Charset
  {
    Charset[RandomIndex(r)]
  }

  /** Every index of the character set is drawn by some random value. */
  lemma RandomIndexCovers(k: nat)
    requires k < |Charset|
    ensures 0.0 <= k as real / |Charset| as real < 1.0
    ensures RandomIndex(k as real / |Charset| as real) == k
  {
    var r := k as real / |Charset| as real;
    assert r * |Charset| as real == k as real;
  }

  // ---------------------------------------------------------------------------
  // Layout

  /** A child of the banner container: a character span, a line break, or
      the typing cursor element. `targetChar` is the `data-target-char`
      attribute, set only by `createCharacterSpans`. */
  datatype Node = Span(text: char, targetChar: Option<char>) | Br | Cursor

  /** What a reader of the page sees of a node. */
  datatype Shown = Glyph(c: char) | LineBreak | CursorMark

  function Show(n: Node): Shown {
    match n
    case Span(c, _) => Glyph(c)
    case Br => LineBreak
    case Cursor => CursorMark
  }

  function ShowAll(nodes: seq<Node>): (r: seq<Shown>)
    ensures |r| == |nodes|
    ensures forall i :: 0 <= i < |nodes| ==> r[i] == Show(nodes[i])
  {
    seq(|nodes|, i requires 0 <= i < |nodes| => Show(nodes[i]))
  }

  /** Spans whose text and target are both the character itself. */
  function Cells(s: string): (r: seq<Node>)
    ensures |r| == |s|
    ensures forall k :: 0 <= k < |s| ==> r[k] == Span(s[k], Some(s[k]))
  {
    seq(|s|, k requires 0 <= k < |s| => Span(s[k], Some(s[k])))
  }

  /** The spans with one line break inserted before position `at`. */
  function WithBreak(spans: seq<Node>, at: nat): (r: seq<Node>)
    requires at <= |spans|
    ensures |r| == |spans| + 1 && r[at] == Br
    ensures forall i :: 0 <= i < at ==> r[i] == spans[i]
    ensures forall i :: at < i < |r| ==> r[i] == spans[i - 1]
  {
    spans[..at] + [Br] + spans[at..]
  }

  /** `createCharacterSpans`: the characters of each space-separated word as
      spans, in order, and one line break after the first word. Stated against
      the text before the first space and the non-space text after it. */
  function CreateCharacterSpans(text: string): (r: seq<Node>)
    ensures r == Cells(Before(text, ' ')) + [Br] + Cells(Remove(After(text, ' '), ' '))
    ensures Cursor !in r
  {
    var words := Split(text, ' ');
    SplitHead(text, ' ');
    var chars := words[0] + Flatten(words[1..]);
    var spans := Cells(chars);
    assert spans[..|words[0]|] == Cells(words[0]);
    assert spans[|words[0]|..] == Cells(Flatten(words[1..]));
    WithBreak(spans, |words[0]|)
  }

  /** The first word followed by the non-space rest is the text without spaces. */
  lemma {:induction false} BeforeAfterRemove(s: string, c: char)
    ensures Before(s, c) + Remove(After(s, c), c) == Remove(s, c)
    decreases |s|
  {
    if |s| > 0 && s[0] != c {
      BeforeAfterRemove(s[1..], c);
    }
  }

  /** The layout of a title: one span per non-space character, in input order,
      text and target equal to that character; exactly one line break, right
      after the first word, and last when the title is a single word. */
  lemma CharacterSpansLayout(text: string)
    ensures var r := CreateCharacterSpans(text);
            var chars := Remove(text, ' ');
            var b := |Before(text, ' ')|;
            && |r| == |chars| + 1
            && b <= |chars|
            && r[b] == Br
            && (forall i :: 0 <= i < b ==> r[i] == Span(chars[i], Some(chars[i])))
            && (forall i :: b < i < |r| ==> r[i] == Span(chars[i - 1], Some(chars[i - 1])))
            && (' ' !in text ==> b == |r| - 1)
  {
    BeforeAfterRemove(text, ' ');
    var chars := Remove(text, ' ');
    var b := |Before(text, ' ')|;
    var r := CreateCharacterSpans(text);
    if ' ' !in text {
      assert After(text, ' ') == "" by { AfterWithoutSeparator(text, ' '); }
    }
    forall i | b < i < |r|
      ensures r[i] == Span(chars[i - 1], Some(chars[i - 1]))
    {
      assert chars[i - 1] == Remove(After(text, ' '), ' ')[i - 1 - b];
    }
  }

  lemma {:induction false} AfterWithoutSeparator(s: string, c: char)
    requires c !in s
    ensures After(s, c) == ""
    decreases |s|
  {
    if |s| > 0 {
      assert s[0] != c;
      assert c !in s[1..];
      AfterWithoutSeparator(s[1..], c);
    }
  }

  // ---------------------------------------------------------------------------
  // Upper-casing keeps the word structure

  lemma {:induction false} UpperRemove(s: string)
    ensures Remove(UpperString(s), ' ') == UpperString(Remove(s, ' '))
    decreases |s|
  {
    if |s| > 0 {
      UpperRemove(s[1..]);
      assert UpperString(s)[1..] == UpperString(s[1..]);
      if s[0] != ' ' {
        assert UpperString([s[0]] + Remove(s[1..], ' ')) == [Upper(s[0])] + UpperString(Remove(s[1..], ' '));
      }
    }
  }

  lemma {:induction false} UpperBefore(s: string)
    ensures |Before(UpperString(s), ' ')| == |Before(s, ' ')|
    decreases |s|
  {
    if |s| > 0 {
      UpperBefore(s[1..]);
      assert UpperString(s)[1..] == UpperString(s[1..]);
    }
  }

  // ---------------------------------------------------------------------------
  // One cell

  /** The text a cell shows from time `at` on, for one flip. */
  datatype Frame = Frame(at: nat, glyph: char)

  /** `cycleCharacter`: `CycleCount` random glyphs, then the upper-cased target,
      each held for one flip; `pick(i)` is the i-th random value. */
  function CycleCharacter(target: char, start: nat, pick: nat -> Draw): (frames: seq<Frame>)
    ensures |frames| == CycleCount + 1
    ensures forall i :: 0 <= i < CycleCount ==> frames[i].glyph in Charset
    ensures frames[CycleCount].glyph == Upper(target)
    ensures frames[0].at == start
    ensures forall i :: 0 < i < |frames| ==> frames[i].at == frames[i - 1].at + FlipDuration
    ensures frames[CycleCount].at + FlipDuration == start + 1800
  {
    var frames := seq(CycleCount + 1, i requires 0 <= i <= CycleCount =>
      Frame(start + i * FlipDuration, if i < CycleCount then GetRandomChar(pick(i)) else Upper(target)));
    assert forall i :: 0 <= i < CycleCount ==> frames[i].glyph == GetRandomChar(pick(i));
    frames
  }

  // ---------------------------------------------------------------------------
  // A transition

  /** One animated cell: the glyph it is created with, its start time and its flips. */
  datatype CellRun = CellRun(initial: char, start: nat, frames: seq<Frame>)

  /** The glyph a cell shows once all its flips are done. */
  function Final(run: CellRun): char {
    if |run.frames| == 0 then run.initial else run.frames[|run.frames| - 1].glyph
  }

  /** The time a cell's last flip ends. */
  function SettleTime(run: CellRun): nat {
    if |run.frames| == 0 then run.start else run.frames[|run.frames| - 1].at + FlipDuration
  }

  /** A transition: the cells in reading order and where the line break goes. */
  datatype Transition = Transition(runs: seq<CellRun>, breakAt: nat)

  predicate ValidTransition(t: Transition) {
    t.breakAt <= |t.runs|
  }

  /** The container right after `transitionToTitle` has built it: the cells,
      the line break, and the cursor moved back to the end. */
  function Opening(t: Transition): seq<Node>
    requires ValidTransition(t)
  {
    WithBreak(seq(|t.runs|, k requires 0 <= k < |t.runs| => Span(t.runs[k].initial, None)), t.breakAt) + [Cursor]
  }

  /** The container once every cell has settled. */
  function Closing(t: Transition): seq<Node>
    requires ValidTransition(t)
  {
    WithBreak(seq(|t.runs|, k requires 0 <= k < |t.runs| => Span(Final(t.runs[k]), None)), t.breakAt) + [Cursor]
  }

  /** Cell k of a transition: created with a random glyph, started after k
      stagger delays, settled on its upper-cased target 1800 ms later. */
  function StartCell(c: char, k: nat, pick: (nat, nat) -> Draw): (run: CellRun)
    ensures run.start == k * StaggerDelay && run.initial in Charset
    ensures Final(run) == Upper(c)
    ensures SettleTime(run) == k * StaggerDelay + 1800
  {
    var start := k * StaggerDelay;
    CellRun(GetRandomChar(pick(k, 0)), start, CycleCharacter(c, start, (j: nat) => pick(k, j + 1)))
  }

  /** The cells of a transition over the upper-cased, space-free characters:
      cell k starts after k stagger delays. */
  function StartCells(chars: string, pick: (nat, nat) -> Draw): (runs: seq<CellRun>)
    ensures |runs| == |chars|
    ensures forall k :: 0 <= k < |runs| ==> runs[k].start == k * StaggerDelay
    ensures forall k :: 0 <= k < |runs| ==> runs[k].initial in Charset
    ensures forall k :: 0 <= k < |runs| ==> Final(runs[k]) == Upper(chars[k])
    ensures forall k :: 0 <= k < |runs| ==> SettleTime(runs[k]) == k * StaggerDelay + 1800
  {
    var runs := seq(|chars|, k requires 0 <= k < |chars| => StartCell(chars[k], k, pick));
    assert forall k :: 0 <= k < |chars| ==> runs[k] == StartCell(chars[k], k, pick);
    runs
  }

  /** `transitionToTitle`: upper-case the title, give every character of every
      word a cell created with a random glyph, start the k-th character (counted
      across words) after k stagger delays, and break the line after the first
      word. `pick(k, 0)` is cell k's initial draw, `pick(k, j + 1)` its j-th
      cycling draw. */
  function TransitionToTitle(title: string, pick: (nat, nat) -> Draw): (t: Transition)
    ensures ValidTransition(t)
    ensures |t.runs| == |Remove(title, ' ')|
    ensures t.breakAt == |Before(title, ' ')|
    ensures forall k :: 0 <= k < |t.runs| ==> t.runs[k].start == k * StaggerDelay
    ensures forall k :: 0 <= k < |t.runs| ==> t.runs[k].initial in Charset
    ensures forall k :: 0 <= k < |t.runs| ==> Final(t.runs[k]) == Upper(Remove(title, ' ')[k])
    ensures forall k :: 0 <= k < |t.runs| ==> SettleTime(t.runs[k]) == k * StaggerDelay + 1800
  {
    var upper := UpperString(title);
    var words := Split(upper, ' ');
    var chars := words[0] + Flatten(words[1..]);
    assert chars == UpperString(Remove(title, ' ')) && |words[0]| == |Before(title, ' ')| by {
      SplitHead(upper, ' ');
      BeforeAfterRemove(upper, ' ');
      UpperRemove(title);
      UpperBefore(title);
    }
    var runs := StartCells(chars, pick);
    assert forall k :: 0 <= k < |chars| ==> Upper(chars[k]) == Upper(Remove(title, ' ')[k]);
    Transition(runs, |words[0]|)
  }

  /** `swapTextInstantly`: lay out the upper-cased title directly. The
      container is emptied first and the cursor is not put back. */
  function SwapTextInstantly(title: string): seq<Node> {
    CreateCharacterSpans(UpperString(title))
  }

  /** The instant layout of a title, read glyph by glyph: the upper-cased
      non-space characters with the line break after the first word. */
  lemma SwapTextLayout(title: string)
    ensures var swap := SwapTextInstantly(title);
            var chars := Remove(title, ' ');
            var b := |Before(title, ' ')|;
            && |swap| == |chars| + 1 && b <= |chars| && swap[b] == Br
            && (forall i :: 0 <= i < b ==> Show(swap[i]) == Glyph(Upper(chars[i])))
            && (forall i :: b < i < |swap| ==> Show(swap[i]) == Glyph(Upper(chars[i - 1])))
  {
    var upper := UpperString(title);
    CharacterSpansLayout(upper);
    UpperRemove(title);
    UpperBefore(title);
  }

  /** The animated layout before and after the cells run, read glyph by glyph:
      the cells with the break, then the cursor last. */
  lemma TransitionLayout(title: string, pick: (nat, nat) -> Draw)
    ensures var t := TransitionToTitle(title, pick);
            var chars := Remove(title, ' ');
            var b := t.breakAt;
            var n := |chars| + 1;
            && |Opening(t)| == |Closing(t)| == n + 1
            && Opening(t)[b] == Br && Closing(t)[b] == Br
            && Opening(t)[n] == Cursor && Closing(t)[n] == Cursor
            && (forall i :: 0 <= i < n && i != b ==> Opening(t)[i].Span?)
            && (forall i :: 0 <= i < b ==> Show(Closing(t)[i]) == Glyph(Upper(chars[i])))
            && (forall i :: b < i < n ==> Show(Closing(t)[i]) == Glyph(Upper(chars[i - 1])))
  {
  }

  /** The line breaks of the animated layout sit where the instant layout puts
      them, and once every cell has settled the animated container shows
      exactly what the instant swap shows, followed by the cursor, which only
      the animated path keeps: the random glyphs never survive a transition. */
  lemma TransitionMatchesSwap(title: string, pick: (nat, nat) -> Draw)
    ensures var t := TransitionToTitle(title, pick);
            var swap := SwapTextInstantly(title);
            && |Opening(t)| == |swap| + 1
            && (forall i :: 0 <= i < |swap| ==> (Opening(t)[i] == Br <==> swap[i] == Br))
            && Opening(t)[|swap|] == Cursor
            && Cursor !in swap
            && ShowAll(Closing(t)) == ShowAll(swap + [Cursor])
  {
    var t := TransitionToTitle(title, pick);
    var swap := SwapTextInstantly(title);
    SwapTextLayout(title);
    TransitionLayout(title, pick);
    var b := t.breakAt;
    forall i | 0 <= i < |swap|
      ensures Opening(t)[i] == Br <==> swap[i] == Br
      ensures Show(Closing(t)[i]) == Show((swap + [Cursor])[i])
    {
    }
    assert ShowAll(Closing(t)) == ShowAll(swap + [Cursor]);
  }

  /** The transition is over when its last cell settles: every cell settles by
      then, and with at least one cell that time is reached exactly. */
  function TransitionEnd(t: Transition): (end: nat)
    ensures forall k :: 0 <= k < |t.runs| ==> SettleTime(t.runs[k]) <= end
    ensures |t.runs| > 0 ==> exists k :: 0 <= k < |t.runs| && SettleTime(t.runs[k]) == end
    decreases |t.runs|
  {
    if |t.runs| == 0 then 0
    else
      var rest := TransitionEnd(Transition(t.runs[1..], t.breakAt));
      assert forall k :: 1 <= k < |t.runs| ==> t.runs[k] == t.runs[1..][k - 1];
      if SettleTime(t.runs[0]) >= rest then SettleTime(t.runs[0]) else rest
  }

  /** A title of n non-space characters takes (n - 1) stagger delays plus one
      cell's 1800 ms to settle. */
  lemma TransitionDuration(title: string, pick: (nat, nat) -> Draw)
    requires |Remove(title, ' ')| > 0
    ensures TransitionEnd(TransitionToTitle(title, pick))
            == (|Remove(title, ' ')| - 1) * StaggerDelay + 1800
  {
    var t := TransitionToTitle(title, pick);
    var n := |t.runs|;
    var k :| 0 <= k < n && SettleTime(t.runs[k]) == TransitionEnd(t);
    assert SettleTime(t.runs[n - 1]) <= TransitionEnd(t);
    assert k * StaggerDelay <= (n - 1) * StaggerDelay;
  }

  // ---------------------------------------------------------------------------
  // The title loop

  /** The banner: which title is current, what the container holds, and the
      wrapper's `aria-label`. */
  datatype Board = Board(index: nat, nodes: seq<Node>, ariaLabel: string)

  /** A banner at rest: the index is in range, the label holds the title in its
      original case, and the container shows the upper-cased title, followed
      by the cursor when the cursor is still in the container. */
  predicate Settled(b: Board, titles: seq<string>) {
    && b.index < |titles|
    && b.ariaLabel == titles[b.index]
    && var swap := SwapTextInstantly(titles[b.index]);
       (ShowAll(b.nodes) == ShowAll(swap) || ShowAll(b.nodes) == ShowAll(swap + [Cursor]))
  }

  /** The circular advance of the title index. */
  function NextIndex(i: nat, n: nat): (j: nat)
    requires n > 0
    ensures j < n
    ensures i < n - 1 ==> j == i + 1
    ensures i == n - 1 ==> j == 0
  {
    (i + 1) % n
  }

  /** The state `animationLoop` sets up: the first title, labelled as written,
      with the cursor appended after it. */
  function Start(titles: seq<string>): (b: Board)
    requires |titles| > 0
    ensures Settled(b, titles) && b.index == 0 && b.ariaLabel == titles[0]
    ensures |b.nodes| > 0 && b.nodes[|b.nodes| - 1] == Cursor
  {
    Board(0, CreateCharacterSpans(UpperString(titles[0])) + [Cursor], titles[0])
  }

  /** One reduced-motion tick: the text and the label change together, and
      the cursor is gone from the container. */
  function ReducedMotionTick(b: Board, titles: seq<string>): (r: Board)
    requires |titles| > 0
    ensures r.index == NextIndex(b.index, |titles|)
    ensures Settled(r, titles)
    ensures Cursor !in r.nodes
  {
    var i := NextIndex(b.index, |titles|);
    Board(i, SwapTextInstantly(titles[i]), titles[i])
  }

  /** The start of one animated step: the next title is laid out with random
      glyphs while the label still names the previous title. */
  function BeginTransition(b: Board, titles: seq<string>, pick: (nat, nat) -> Draw): (r: (Board, Transition))
    requires |titles| > 0
    ensures r.0.index == NextIndex(b.index, |titles|)
    ensures r.0.ariaLabel == b.ariaLabel
    ensures r.1 == TransitionToTitle(titles[r.0.index], pick)
    ensures r.0.nodes == Opening(r.1)
  {
    var i := NextIndex(b.index, |titles|);
    var t := TransitionToTitle(titles[i], pick);
    (Board(i, Opening(t), b.ariaLabel), t)
  }

  /** The end of one animated step: every cell has settled and only now does
      the label change to the new title. */
  function FinishTransition(b: Board, t: Transition, titles: seq<string>): (r: Board)
    requires b.index < |titles| && ValidTransition(t)
    ensures r.index == b.index && r.nodes == Closing(t)
    ensures r.ariaLabel == titles[b.index]
  {
    Board(b.index, Closing(t), titles[b.index])
  }

  /** One full animated step leaves the banner at rest on the next title,
      with the cursor last. */
  function AnimatedStep(b: Board, titles: seq<string>, pick: (nat, nat) -> Draw): (r: Board)
    requires |titles| > 0
    ensures r.index == NextIndex(b.index, |titles|)
    ensures Settled(r, titles)
    ensures ShowAll(r.nodes) == ShowAll(SwapTextInstantly(titles[r.index]) + [Cursor])
  {
    var (mid, t) := BeginTransition(b, titles, pick);
    TransitionMatchesSwap(titles[mid.index], pick);
    FinishTransition(mid, t, titles)
  }

  /** The banner after `k` reduced-motion ticks. */
  function ReducedRun(titles: seq<string>, k: nat): Board
    requires |titles| > 0
  {
    if k == 0 then Start(titles) else ReducedMotionTick(ReducedRun(titles, k - 1), titles)
  }

  lemma MulAtLeast(x: int, n: int)
    requires x >= 1 && n > 0
    ensures x * n >= n
  {
    var y := x - 1;
    assert x * n == y * n + n;
    assert y * n >= 0;
  }

  /** The remainder is determined by any quotient/remainder decomposition. */
  lemma ModUnique(a: int, n: int, q: int, r: int)
    requires n > 0 && 0 <= r < n && a == q * n + r
    ensures a % n == r
  {
    var q' := a / n;
    var r' := a % n;
    assert a == q' * n + r';
    assert (q - q') * n == r' - r by {
      assert q * n - q' * n == (q - q') * n;
    }
    if q > q' {
      MulAtLeast(q - q', n);
    } else if q < q' {
      MulAtLeast(q' - q, n);
    }
  }

  /** Advancing a reduced index agrees with reducing the advanced count. */
  lemma NextIndexMod(k: nat, n: nat)
    requires n > 0
    ensures NextIndex(k % n, n) == (k + 1) % n
  {
    var q := k / n;
    var r := k % n;
    assert k == q * n + r;
    if r + 1 < n {
      ModUnique(k + 1, n, q, r + 1);
      ModUnique(r + 1, n, 0, r + 1);
    } else {
      assert k + 1 == (q + 1) * n;
      ModUnique(k + 1, n, q + 1, 0);
      ModUnique(r + 1, n, 1, 0);
    }
  }

  /** The title index after k advances from 0. */
  function Rotation(k: nat, n: nat): (i: nat)
    requires n > 0
    ensures i < n
  {
    if k == 0 then 0 else NextIndex(Rotation(k - 1, n), n)
  }

  /** The titles are visited in order, wrapping around: k advances from the
      first title reach title k mod n. */
  lemma {:induction false} RotationIsMod(k: nat, n: nat)
    requires n > 0
    ensures Rotation(k, n) == k % n
  {
    if k > 0 {
      RotationIsMod(k - 1, n);
      NextIndexMod(k - 1, n);
    }
  }

  /** Either step taken from title k mod n lands on title k + 1 mod n, at rest
      and labelled with that title as configured: the titles are visited in
      order and the label never shows an upper-cased or stale title once a
      step is complete. */
  lemma StepAdvancesRotation(b: Board, titles: seq<string>, pick: (nat, nat) -> Draw, k: nat)
    requires |titles| > 0 && b.index == k % |titles|
    ensures var r := AnimatedStep(b, titles, pick);
            r.index == (k + 1) % |titles| && r.ariaLabel == titles[(k + 1) % |titles|]
    ensures var r := ReducedMotionTick(b, titles);
            r.index == (k + 1) % |titles| && r.ariaLabel == titles[(k + 1) % |titles|]
  {
    NextIndexMod(k, |titles|);
  }

  /** After k reduced-motion ticks the banner is at rest on the k-th rotation. */
  lemma {:induction false} ReducedRunRotates(titles: seq<string>, k: nat)
    requires |titles| > 0
    ensures ReducedRun(titles, k).index == Rotation(k, |titles|)
    ensures Settled(ReducedRun(titles, k), titles)
  {
    if k > 0 {
      ReducedRunRotates(titles, k - 1);
    }
  }

  /** The `aria-label` after k reduced-motion ticks is title k mod n, exactly
      as configured (not upper-cased). */
  lemma AriaLabelAfterTicks(titles: seq<string>, k: nat)
    requires |titles| > 0
    ensures ReducedRun(titles, k).ariaLabel == titles[k % |titles|]
  {
    RotationIsMod(k, |titles|);
    ReducedRunRotates(titles, k);
  }

  /** With the configured constants one cell makes nine flips over 1800 ms and
      the six titles rotate. */
  lemma ConfiguredTiming(target: char, pick: nat -> Draw)
    ensures |CycleCharacter(target, 0, pick)| == 9
    ensures SettleTime(CellRun(' ', 0, CycleCharacter(target, 0, pick))) == 1800
    ensures |Charset| == 46 && |Titles| == 6
    ensures Start(Titles).ariaLabel == "UI Designer"
  {
  }
}

=== FILE: lightbox.dfy ===
/** The lightbox binder (src/js/modules/lightgallery.js).

    Four markup patterns are decorated for the lightbox viewer: carousels,
    standalone figures, the gallery grid and the accordion images. Each
    decorated element receives a `data-glightbox` value `description: <d>`
    where `<d>` combines the image's alt text with a shared caption, and a
    `data-gallery` group name deciding which media open together. The page is
    abstracted to the records the binder reads; the viewer itself is not
    modelled. */
module Lightbox {
  import opened Wrappers
  import opened Text

  // ---------------------------------------------------------------------------
  // Descriptions

  const AltOpen: string := "<p class=\"alt-content\">"
  const CaptionOpen: string := "<p class=\"lg-figcaption\">"
  const Close: string := "</p>"

  function AltParagraph(alt: string): string {
    AltOpen + alt + Close
  }

  function CaptionParagraph(caption: string): string {
    CaptionOpen + caption + Close
  }

  /** `buildDescription`: both texts give an alt paragraph then a caption
      paragraph; alt alone gives its paragraph; a caption alone is returned as
      it is, without a paragraph; neither gives the empty string. Nothing is
      escaped. */
  function BuildDescription(alt: string, caption: string): (d: string)
    ensures alt != "" && caption != "" ==> d == AltParagraph(alt) + CaptionParagraph(caption)
    ensures alt != "" && caption == "" ==> d == AltParagraph(alt)
    ensures alt == "" && caption != "" ==> d == caption
    ensures alt == "" && caption == "" ==> d == ""
  {
    if alt != "" && caption != "" then AltParagraph(alt) + CaptionParagraph(caption)
    else if alt != "" then AltParagraph(alt)
    else if caption != "" then caption
    else ""
  }

  /** No text is lost: the alt text sits right after the opening alt tag, the
      caption closes the description (inside its paragraph when there is an
      alt text), the alt text comes first, and the description is empty
      exactly when both inputs are. */
  lemma DescriptionContents(alt: string, caption: string)
    ensures var d := BuildDescription(alt, caption);
            && (d == "" <==> alt == "" && caption == "")
            && (alt != "" ==> d[..|AltOpen|] == AltOpen && d[|AltOpen|..|AltOpen| + |alt|] == alt)
            && (alt != "" && caption != "" ==>
                  d[|d| - |Close| - |caption|..|d| - |Close|] == caption
                  && |AltOpen| + |alt| <= |d| - |Close| - |caption|)
            && (alt == "" ==> d == caption)
  {
    var d := BuildDescription(alt, caption);
    if alt != "" && caption != "" {
      assert d == AltOpen + alt + Close + CaptionOpen + caption + Close;
      assert d[|d| - |Close| - |caption|..|d| - |Close|] == caption;
    } else if alt != "" {
      assert d == AltOpen + alt + Close;
    }
  }

  /** A caption-only description is not wrapped, so a caption that happens to
      be an alt paragraph cannot be told apart from an alt text without caption. */
  lemma UnwrappedCaptionIsAmbiguous(alt: string)
    requires alt != ""
    ensures BuildDescription("", AltParagraph(alt)) == BuildDescription(alt, "")
  {
  }

  const DescriptionKey: string := "description: "

  /** The `data-glightbox` value for a description. */
  function GlightboxValue(description: string): string {
    DescriptionKey + description
  }

  /** The caption text the binder uses: the trimmed text of the caption
      element, or the empty string when there is none. */
  function SharedCaption(caption: Option<string>): string {
    if caption.Some? then Trim(caption.value) else ""
  }

  // ---------------------------------------------------------------------------
  // Page records and what the binder writes

  datatype Image = Image(alt: string, src: string)

  /** A video: its `src` property ("" when unset), its `aria-label` attribute,
      and the `src` of its first nested `source` element, if there is one. */
  datatype Video = Video(src: string, ariaLabel: Option<string>, sourceSrc: Option<string>)

  /** The attributes the binder writes on one element: the class it adds, the
      `href` (None when it sets none), `data-gallery` and `data-glightbox`. */
  datatype Entry = Entry(addedClass: string, href: Option<string>, gallery: Option<string>, glightbox: string)

  /** An element the binder wraps: what it writes on the media element itself
      (None when it writes nothing there) and on the new anchor around it. */
  datatype Wrapped = Wrapped(media: Option<Entry>, anchor: Entry)

  // ---------------------------------------------------------------------------
  // Groups

  /** The entries of a group, in document order: what the viewer lets the user
      browse once one of them is opened. */
  function Group(entries: seq<Entry>, name: string): (g: seq<Entry>)
    ensures forall e :: e in g ==> e in entries && e.gallery == Some(name)
    ensures forall e :: e in entries && e.gallery == Some(name) ==> e in g
    decreases |entries|
  {
    if |entries| == 0 then []
    else if entries[0].gallery == Some(name) then [entries[0]] + Group(entries[1..], name)
    else Group(entries[1..], name)
  }

  lemma {:induction false} GroupAppend(a: seq<Entry>, b: seq<Entry>, name: string)
    ensures Group(a + b, name) == Group(a, name) + Group(b, name)
    decreases |a|
  {
    if |a| > 0 {
      assert (a + b)[1..] == a[1..] + b;
      GroupAppend(a[1..], b, name);
    } else {
      assert a + b == b;
    }
  }

  /** A list whose entries all belong to `name` is its own group and nothing of
      any other group. */
  lemma {:induction false} GroupOfUniform(es: seq<Entry>, owner: string, name: string)
    requires forall k :: 0 <= k < |es| ==> es[k].gallery == Some(owner)
    ensures Group(es, name) == if name == owner then es else []
    decreases |es|
  {
    if |es| > 0 {
      GroupOfUniform(es[1..], owner, name);
      if name == owner {
        assert es == [es[0]] + es[1..];
      }
    }
  }


  // ---------------------------------------------------------------------------
  // Carousels

  /** A carousel: the text of its shared caption element, if any, and its images. */
  datatype Carousel = Carousel(caption: Option<string>, images: seq<Image>)

  /** The group of the i-th carousel on the page. */
  function CarouselName(i: nat): string {
    "carousel-" + Digits(i)
  }

  /** Different carousels get different group names. */
  lemma CarouselNamesDistinct(i: nat, j: nat)
    ensures CarouselName(i) == CarouselName(j) ==> i == j
  {
    if CarouselName(i) == CarouselName(j) {
      assert Digits(i) == CarouselName(i)[9..];
      assert Digits(j) == CarouselName(j)[9..];
      DigitsInjective(i, j);
    }
  }

  function CarouselEntry(image: Image, caption: string, i: nat): Entry {
    Entry("glightbox", None, Some(CarouselName(i)), GlightboxValue(BuildDescription(image.alt, caption)))
  }

  /** `initCarouselGalleries`: every image of carousel i, in order, is placed in
      group `carousel-i` and described from its alt text and the carousel's
      trimmed caption; no `href` is written and nothing is wrapped. */
  function InitCarouselGalleries(carousels: seq<Carousel>): (r: seq<seq<Entry>>)
    ensures |r| == |carousels|
    ensures forall i :: 0 <= i < |r| ==> |r[i]| == |carousels[i].images|
    ensures forall i, j :: 0 <= i < |r| && 0 <= j < |r[i]| ==>
              && r[i][j].gallery == Some(CarouselName(i))
              && r[i][j].href == None
              && r[i][j].glightbox
                 == DescriptionKey + BuildDescription(carousels[i].images[j].alt, SharedCaption(carousels[i].caption))
  {
    seq(|carousels|, i requires 0 <= i < |carousels| => CarouselEntries(carousels[i], i))
  }

  /** The entries of the i-th carousel's images, in order. */
  function CarouselEntries(c: Carousel, i: nat): (es: seq<Entry>)
    ensures |es| == |c.images|
    ensures forall j :: 0 <= j < |es| ==> es[j] == CarouselEntry(c.images[j], SharedCaption(c.caption), i)
  {
    seq(|c.images|, j requires 0 <= j < |c.images| => CarouselEntry(c.images[j], SharedCaption(c.caption), i))
  }

  /** Every entry of the j-th list is in group `carousel-(lo + j)`. */
  predicate CarouselGrouped(r: seq<seq<Entry>>, lo: nat) {
    forall j, k :: 0 <= j < |r| && 0 <= k < |r[j]| ==> r[j][k].gallery == Some(CarouselName(lo + j))
  }

  /** The group of `carousel-i` within the decorated carousels lo.. is exactly
      the images of that carousel, and empty for a carousel outside them. */
  lemma {:induction false} GroupOfCarousels(r: seq<seq<Entry>>, lo: nat, i: nat)
    requires CarouselGrouped(r, lo)
    ensures lo <= i < lo + |r| ==> Group(Flatten(r), CarouselName(i)) == r[i - lo]
    ensures !(lo <= i < lo + |r|) ==> Group(Flatten(r), CarouselName(i)) == []
    decreases |r|
  {
    if |r| > 0 {
      assert CarouselGrouped(r[1..], lo + 1) by {
        forall j, k | 0 <= j < |r[1..]| && 0 <= k < |r[1..][j]|
          ensures r[1..][j][k].gallery == Some(CarouselName(lo + 1 + j))
        {
          assert r[1..][j] == r[j + 1];
        }
      }
      assert forall k :: 0 <= k < |r[0]| ==> r[0][k].gallery == Some(CarouselName(lo));
      GroupAppend(r[0], Flatten(r[1..]), CarouselName(i));
      GroupOfUniform(r[0], CarouselName(lo), CarouselName(i));
      CarouselNamesDistinct(lo, i);
      GroupOfCarousels(r[1..], lo + 1, i);
      if i == lo {
        assert Group(Flatten(r[1..]), CarouselName(i)) == [];
        assert r[0] + [] == r[0];
      }
    }
  }

  /** Every entry of carousel j is in group `carousel-j`. */
  lemma CarouselGalleriesGrouped(carousels: seq<Carousel>)
    ensures CarouselGrouped(InitCarouselGalleries(carousels), 0)
  {
  }

  /** Opening any image of carousel i browses exactly the images of carousel i,
      in order: images of different carousels never share a group. */
  lemma CarouselGroupsSeparate(carousels: seq<Carousel>, i: nat)
    requires i < |carousels|
    ensures var r := InitCarouselGalleries(carousels);
            Group(Flatten(r), CarouselName(i)) == r[i]
  {
    CarouselGalleriesGrouped(carousels);
    GroupOfCarouselAt(InitCarouselGalleries(carousels), i);
  }

  /** Within all decorated carousels, group `carousel-i` is carousel i's entries. */
  lemma GroupOfCarouselAt(r: seq<seq<Entry>>, i: nat)
    requires i < |r| && CarouselGrouped(r, 0)
    ensures Group(Flatten(r), CarouselName(i)) == r[i]
  {
    GroupOfCarousels(r, 0, i);
  }

  // ---------------------------------------------------------------------------
  // Standalone figures

  datatype Figure = Figure(img: Option<Image>, caption: Option<string>)

  /** `initStandaloneImages`: a figure without an image is skipped; otherwise
      the image and a new anchor around it both get class
      `glightbox-standalone`, the image's `src` as `href`, the description, and
      no group. */
  function InitStandaloneImages(figures: seq<Figure>): (r: seq<Option<Wrapped>>)
    ensures |r| == |figures|
    ensures forall i :: 0 <= i < |r| ==> (r[i].None? <==> figures[i].img.None?)
    ensures forall i :: 0 <= i < |r| && r[i].Some? ==>
              var img := figures[i].img.value;
              var a := r[i].value.anchor;
              && r[i].value.media == Some(a)
              && a.addedClass == "glightbox-standalone"
              && a.href == Some(img.src)
              && a.gallery.None?
              && a.glightbox == DescriptionKey + BuildDescription(img.alt, SharedCaption(figures[i].caption))
  {
    seq(|figures|, i requires 0 <= i < |figures| =>
      match figures[i].img
      case None => None
      case Some(img) =>
        var e := Entry("glightbox-standalone", Some(img.src), None,
                       GlightboxValue(BuildDescription(img.alt, SharedCaption(figures[i].caption))));
        Some(Wrapped(Some(e), e)))
  }

  /** Every element a list of wrapped results writes on, in document order:
      the anchor, then the media element inside it when something was written
      there. */
  function WrappedEntries(ws: seq<Option<Wrapped>>): seq<Entry>
    decreases |ws|
  {
    if |ws| == 0 then []
    else
      (match ws[0]
       case None => []
       case Some(w) => [w.anchor] + (if w.media.Some? then [w.media.value] else []))
      + WrappedEntries(ws[1..])
  }

  /** Entries without a `data-gallery` belong to no group. */
  lemma {:induction false} GroupOfUngrouped(es: seq<Entry>, name: string)
    requires forall k :: 0 <= k < |es| ==> es[k].gallery.None?
    ensures Group(es, name) == []
    decreases |es|
  {
    if |es| > 0 {
      GroupOfUngrouped(es[1..], name);
    }
  }

  lemma {:induction false} WrappedEntriesUngrouped(ws: seq<Option<Wrapped>>)
    requires forall i :: 0 <= i < |ws| && ws[i].Some? ==>
               ws[i].value.anchor.gallery.None?
               && (ws[i].value.media.Some? ==> ws[i].value.media.value.gallery.None?)
    ensures forall k :: 0 <= k < |WrappedEntries(ws)| ==> WrappedEntries(ws)[k].gallery.None?
    decreases |ws|
  {
    if |ws| > 0 {
      WrappedEntriesUngrouped(ws[1..]);
    }
  }

  /** No element the binder decorates for a standalone figure carries a
      `data-gallery` group, so none belongs to any group, whatever its name. */
  lemma StandaloneUngrouped(figures: seq<Figure>, name: string)
    ensures Group(WrappedEntries(InitStandaloneImages(figures)), name) == []
  {
    var r := InitStandaloneImages(figures);
    WrappedEntriesUngrouped(r);
    GroupOfUngrouped(WrappedEntries(r), name);
  }

  // ---------------------------------------------------------------------------
  // The gallery grid

  /** A grid item: its gallery image, its gallery video and its caption text. */
  datatype GridItem = GridItem(img: Option<Image>, video: Option<Video>, caption: Option<string>)

  /** What the binder writes for one grid item: the wrapped image and the
      anchor around the video, each when present. */
  datatype GridResult = GridResult(image: Option<Wrapped>, video: Option<Entry>)

  /** `video.src || video.querySelector('source')?.src`: None is `undefined`. */
  function VideoSource(v: Video): (s: Option<string>)
    ensures v.src != "" ==> s == Some(v.src)
    ensures v.src == "" ==> s == v.sourceSrc
  {
    if v.src != "" then Some(v.src) else v.sourceSrc
  }

  const GridGroup: string := "gallery-grid"

  function GridImage(img: Image, caption: string): Wrapped {
    var value := GlightboxValue(BuildDescription(img.alt, caption));
    Wrapped(Some(Entry("glightbox-gallery", None, Some(GridGroup), value)),
            Entry("glightbox-gallery", Some(img.src), Some(GridGroup), value))
  }

  /** Assigning `undefined` to `href` stores the string "undefined". */
  function GridVideo(v: Video, caption: string): Entry {
    Entry("glightbox-gallery", Some(VideoSource(v).GetOr("undefined")), Some(GridGroup),
          GlightboxValue(BuildDescription(v.ariaLabel.GetOr(""), caption)))
  }

  /** `initGalleryGrid`: nothing without a grid; otherwise every image and every
      video of every item is put in the one group `gallery-grid`, described
      from its alt text (a video's `aria-label`) and the item's trimmed caption,
      and wrapped in an anchor to its source. An image also gets the class,
      the group and the description on itself; a video gets nothing on itself. */
  function InitGalleryGrid(grid: Option<seq<GridItem>>): (r: seq<GridResult>)
    ensures grid.None? ==> r == []
    ensures grid.Some? ==> |r| == |grid.value|
    ensures grid.Some? ==> forall i :: 0 <= i < |r| ==>
              && (r[i].image.Some? <==> grid.value[i].img.Some?)
              && (r[i].video.Some? <==> grid.value[i].video.Some?)
    ensures grid.Some? ==> forall i :: 0 <= i < |r| && r[i].image.Some? ==>
              var img := grid.value[i].img.value;
              var d := DescriptionKey + BuildDescription(img.alt, SharedCaption(grid.value[i].caption));
              && r[i].image.value.anchor.glightbox == d
              && r[i].image.value.media.Some?
              && r[i].image.value.media.value.glightbox == d
              && r[i].image.value.media.value.href.None?
    ensures grid.Some? ==> forall i :: 0 <= i < |r| && r[i].video.Some? ==>
              var v := grid.value[i].video.value;
              r[i].video.value.glightbox
                == DescriptionKey + BuildDescription(v.ariaLabel.GetOr(""), SharedCaption(grid.value[i].caption))
  {
    match grid
    case None => []
    case Some(items) =>
      seq(|items|, i requires 0 <= i < |items| =>
        var caption := SharedCaption(items[i].caption);
        GridResult(
          if items[i].img.Some? then Some(GridImage(items[i].img.value, caption)) else None,
          if items[i].video.Some? then Some(GridVideo(items[i].video.value, caption)) else None))
  }

  /** Every element the grid binder marks with class `glightbox-gallery`, in
      document order: an image's anchor, the image inside it, then the video's
      anchor. This is what the grid's viewer selector matches. */
  function GridEntries(results: seq<GridResult>): seq<Entry>
    decreases |results|
  {
    if |results| == 0 then []
    else
      (if results[0].image.Some? then
         [results[0].image.value.anchor] + (if results[0].image.value.media.Some? then [results[0].image.value.media.value] else [])
       else [])
      + (if results[0].video.Some? then [results[0].video.value] else [])
      + GridEntries(results[1..])
  }

  /** Every element the grid binder marks, image, anchor or video, is in
      `gallery-grid`; an image anchor links to the image, a video anchor to the
      video's `src`, else to its nested source's `src`, else "undefined". */
  lemma {:induction false} GridIsOneGroup(grid: seq<GridItem>)
    ensures var entries := GridEntries(InitGalleryGrid(Some(grid)));
            Group(entries, GridGroup) == entries
    ensures forall i :: 0 <= i < |grid| && grid[i].img.Some? ==>
              InitGalleryGrid(Some(grid))[i].image.value.anchor.href == Some(grid[i].img.value.src)
    ensures forall i :: 0 <= i < |grid| && grid[i].video.Some? ==>
              var v := grid[i].video.value;
              InitGalleryGrid(Some(grid))[i].video.value.href
                == Some(if v.src != "" then v.src else v.sourceSrc.GetOr("undefined"))
  {
    var entries := GridEntries(InitGalleryGrid(Some(grid)));
    GridEntriesInGroup(InitGalleryGrid(Some(grid)));
    GroupOfUniform(entries, GridGroup, GridGroup);
  }

  lemma {:induction false} GridEntriesInGroup(results: seq<GridResult>)
    requires forall i :: 0 <= i < |results| && results[i].image.Some? ==>
               results[i].image.value.anchor.gallery == Some(GridGroup)
               && (results[i].image.value.media.Some? ==> results[i].image.value.media.value.gallery == Some(GridGroup))
    requires forall i :: 0 <= i < |results| && results[i].video.Some? ==>
               results[i].video.value.gallery == Some(GridGroup)
    ensures forall k :: 0 <= k < |GridEntries(results)| ==> GridEntries(results)[k].gallery == Some(GridGroup)
    decreases |results|
  {
    if |results| > 0 {
      GridEntriesInGroup(results[1..]);
    }
  }

  /** The grid group lists each image twice: the image itself and its anchor
      are two different entries of `gallery-grid` with the same description
      (only the anchor has an `href`). */
  lemma GridImageListedTwice(item: GridItem)
    requires item.img.Some?
    ensures var w := InitGalleryGrid(Some([item]))[0].image.value;
            var g := Group(GridEntries(InitGalleryGrid(Some([item]))), GridGroup);
            && w.media.Some?
            && w.anchor in g && w.media.value in g
            && w.anchor != w.media.value
            && w.anchor.glightbox == w.media.value.glightbox
            && |g| == if item.video.Some? then 3 else 2
  {
    GridIsOneGroup([item]);
    var r := InitGalleryGrid(Some([item]));
    assert r[1..] == [];
  }

  // ---------------------------------------------------------------------------
  // Accordion images

  /** The description `initAccordionImages` writes: the alt paragraph, or
      nothing; captions are never consulted. */
  function AccordionDescription(alt: string): (d: string)
    ensures d == BuildDescription(alt, "")
  {
    if alt != "" then AltParagraph(alt) else ""
  }

  const AccordionGroup: string := "accordion-gallery"

  /** `initAccordionImages`: nothing without the accordion grid; otherwise each
      image is wrapped in an anchor to its source, in group
      `accordion-gallery`, described from its alt text alone. */
  function InitAccordionImages(images: Option<seq<Image>>): (r: seq<Entry>)
    ensures images.None? ==> r == []
    ensures images.Some? ==> |r| == |images.value|
    ensures images.Some? ==> forall i :: 0 <= i < |r| ==>
              && r[i].gallery == Some(AccordionGroup)
              && r[i].href == Some(images.value[i].src)
              && r[i].glightbox == DescriptionKey + BuildDescription(images.value[i].alt, "")
  {
    match images
    case None => []
    case Some(imgs) =>
      seq(|imgs|, i requires 0 <= i < |imgs| =>
        Entry("glightbox-accordion", Some(imgs[i].src), Some(AccordionGroup),
              GlightboxValue(AccordionDescription(imgs[i].alt))))
  }
}

=== FILE: navigation.dfy ===
/** Top navigation highlighting (src/js/modules/navigation.js).

    The page regions are checked in the order of a fixed section-to-nav table
    and, within one table entry, in document order; the first region whose
    box is near the top of the viewport decides which nav item is active.
    Bounding boxes and the viewport height are inputs. */
module Navigation {
  import opened Wrappers

  /** A `.nav-item`: its `active` class and whether `aria-current="page"` is set. */
  datatype NavItem = NavItem(active: bool, ariaCurrent: bool)

  /** One row of the section-to-nav table. */
  datatype SectionEntry = SectionEntry(selector: string, navIndex: nat)

  const SectionNavMap: seq<SectionEntry> := [
    SectionEntry(".section-about", 0),
    SectionEntry(".section-project", 1),
    SectionEntry(".section-contact, footer", 2)
  ]

  /** The table's nav indices are distinct and follow the table order. */
  lemma SectionNavMapOrdered()
    ensures |SectionNavMap| == 3
    ensures forall i :: 0 <= i < |SectionNavMap| ==> SectionNavMap[i].navIndex == i
    ensures forall i, j :: 0 <= i < j < |SectionNavMap| ==> SectionNavMap[i].navIndex < SectionNavMap[j].navIndex
  {
  }

  /** `updateActiveNav`: the item at `activeIndex` gets the class and the
      attribute, every other item loses both. */
  function UpdateActiveNav(items: seq<NavItem>, activeIndex: int): (r: seq<NavItem>)
    ensures |r| == |items|
    ensures forall i :: 0 <= i < |r| ==> (r[i].active <==> i == activeIndex)
    ensures forall i :: 0 <= i < |r| ==> (r[i].ariaCurrent <==> i == activeIndex)
  {
    seq(|items|, i requires 0 <= i < |items| => NavItem(i == activeIndex, i == activeIndex))
  }

  /** At most one item is active, and when one is it also carries `aria-current`. */
  predicate AtMostOneActive(items: seq<NavItem>) {
    && (forall i, j :: 0 <= i < |items| && 0 <= j < |items| && items[i].active && items[j].active ==> i == j)
    && (forall i :: 0 <= i < |items| ==> items[i].active == items[i].ariaCurrent)
  }

  /** Updating twice with the same index is updating once; the result never has
      two active items; an index outside the list leaves none active. */
  lemma UpdateActiveNavProperties(items: seq<NavItem>, k: int)
    ensures UpdateActiveNav(UpdateActiveNav(items, k), k) == UpdateActiveNav(items, k)
    ensures AtMostOneActive(UpdateActiveNav(items, k))
    ensures (k < 0 || k >= |items|) ==> forall i :: 0 <= i < |items| ==> !UpdateActiveNav(items, k)[i].active
    ensures 0 <= k < |items| ==> UpdateActiveNav(items, k)[k] == NavItem(true, true)
  {
  }

  /** A viewport-relative bounding box. */
  datatype Rect = Rect(top: real, bottom: real)

  /** A region counts as the current section when its top is at most 100 px
      from the top of the viewport and its bottom is at least 30 % down it. */
  predicate IsActive(r: Rect, windowHeight: real) {
    r.top <= 100.0 && r.bottom >= windowHeight * 0.3
  }

  /** Where a match was found: table entry and position in document order. */
  datatype Hit = Hit(entry: nat, element: nat)

  /** Element `e` of table entry `t` is active and no element before it, in
      table-then-document order, is. */
  predicate FirstActive(regions: seq<seq<Rect>>, windowHeight: real, t: nat, e: nat) {
    && t < |regions| && e < |regions[t]|
    && IsActive(regions[t][e], windowHeight)
    && (forall a, b :: 0 <= a < t && 0 <= b < |regions[a]| ==> !IsActive(regions[a][b], windowHeight))
    && (forall b :: 0 <= b < e ==> !IsActive(regions[t][b], windowHeight))
  }

  predicate NoneActive(regions: seq<seq<Rect>>, windowHeight: real) {
    forall a, b :: 0 <= a < |regions| && 0 <= b < |regions[a]| ==> !IsActive(regions[a][b], windowHeight)
  }

  /** `checkActiveSection`: `regions[t]` holds the boxes of the elements matched
      by table entry t, in document order. The first active element selects its
      entry's nav item and the search stops; when nothing is active the nav
      items are left exactly as they were. */
  method CheckActiveSection(items: seq<NavItem>, regions: seq<seq<Rect>>, windowHeight: real)
    returns (r: seq<NavItem>, hit: Option<Hit>)
    requires |regions| == |SectionNavMap|
    ensures hit.None? <==> NoneActive(regions, windowHeight)
    ensures hit.None? ==> r == items
    ensures hit.Some? ==> FirstActive(regions, windowHeight, hit.value.entry, hit.value.element)
    ensures hit.Some? ==> r == UpdateActiveNav(items, SectionNavMap[hit.value.entry].navIndex)
  {
    var t := 0;
    while t < |regions|
      invariant 0 <= t <= |regions|
      invariant forall a, b :: 0 <= a < t && 0 <= b < |regions[a]| ==> !IsActive(regions[a][b], windowHeight)
    {
      var e := 0;
      while e < |regions[t]|
        invariant 0 <= e <= |regions[t]|
        invariant forall b :: 0 <= b < e ==> !IsActive(regions[t][b], windowHeight)
      {
        if IsActive(regions[t][e], windowHeight) {
          r := UpdateActiveNav(items, SectionNavMap[t].navIndex);
          hit := Some(Hit(t, e));
          return;
        }
        e := e + 1;
      }
      t := t + 1;
    }
    r := items;
    hit := None;
  }

  /** The first match is unique: no two positions can both be the first. */
  lemma FirstActiveUnique(regions: seq<seq<Rect>>, windowHeight: real, t: nat, e: nat, t': nat, e': nat)
    requires FirstActive(regions, windowHeight, t, e) && FirstActive(regions, windowHeight, t', e')
    ensures t == t' && e == e'
  {
  }
}

=== FILE: side_nav_bar.dfy ===
/** The case-study side navigation (src/js/modules/side-nav-bar.js).

    The navigation is built from the sections carrying `data-section-title`:
    a sliding indicator first, then one numbered link per section. Sections
    without an id receive one. The intersection observer is left out; the
    section index it reports, the links' boxes, the document's elements and
    the scroll position are inputs. */
module SideNav {
  import opened Wrappers
  import opened Text

  /** A `[data-section-title]` element: its id ("" when it has none) and title. */
  datatype Section = Section(id: string, title: string)

  /** A child of `.side-nav__list`: the indicator, or the anchor of one
      `.side-nav__item` with its `href`, its `data-section-index` attribute,
      and the text of its number and label spans. */
  datatype NavNode =
    | Indicator
    | Link(href: string, sectionIndex: string, number: string, labelText: string)

  const IdPrefix: string := "section-"

  /** The id a section ends up with: its own when it has one (an empty id is
      falsy), otherwise `section-` followed by its one-based position. */
  function SectionId(s: Section, index: nat): (id: string)
    ensures id != ""
    ensures s.id != "" ==> id == s.id
    ensures s.id == "" ==> |id| > |IdPrefix| && id[..|IdPrefix|] == IdPrefix
                           && AllDigits(id[|IdPrefix|..]) && ParseDigits(id[|IdPrefix|..]) == index + 1
                           && id[|IdPrefix|] != '0'
  {
    if s.id != "" then s.id
    else
      var id := IdPrefix + Digits(index + 1);
      assert id[|IdPrefix|..] == Digits(index + 1);
      ParseDigitsOfDigits(index + 1);
      id
  }

  /** Numerals of numbers below 100 have at most two digits. */
  lemma ShortDigits(n: nat)
    ensures n < 10 ==> Digits(n) == [DigitChar(n)]
    ensures n < 100 ==> |Digits(n)| <= 2
  {
    if 10 <= n < 100 {
      assert Digits(n) == Digits(n / 10) + [DigitChar(n % 10)];
    }
  }

  /** `String(n).padStart(2, '0')`: a numeral of at least two digits whose
      value is `n`, exactly two digits below 100, a leading '0' below 10. */
  function NumberLabel(n: nat): (s: string)
    ensures AllDigits(s) && |s| >= 2 && ParseDigits(s) == n
    ensures n < 10 ==> s == ['0', DigitChar(n)]
    ensures n < 100 ==> |s| == 2
    ensures n >= 10 ==> s == Digits(n)
  {
    PadStartZeros(Digits(n), 2);
    ParseDigitsOfDigits(n);
    ShortDigits(n);
    PadStart(Digits(n), 2, '0')
  }

  /** The link for the section at `index` (whose id is already assigned). The
      index attribute reads back as `index`, and the number is the numeral of
      `index + 1`. */
  function LinkFor(s: Section, index: nat): (n: NavNode)
    ensures n.Link?
    ensures n.href == "#" + s.id && n.labelText == s.title
    ensures n.sectionIndex == Digits(index) && ParseInt(n.sectionIndex) == Int(index)
    ensures n.number == NumberLabel(index + 1)
  {
    ParseIntDigits(index);
    Link("#" + s.id, Digits(index), NumberLabel(index + 1), s.title)
  }

  /** What `buildNavigation` produces: the sections with their ids assigned,
      and the children of the list. */
  datatype Built = Built(sections: seq<Section>, list: seq<NavNode>)

  /** `buildNavigation`: the indicator, then one link per section in document
      order; each section keeps its title and gets its final id. */
  function BuildNavigation(sections: seq<Section>): (b: Built)
    ensures |b.sections| == |sections| && |b.list| == |sections| + 1
    ensures b.list[0] == Indicator
    ensures forall i :: 0 <= i < |sections| ==>
              b.sections[i].title == sections[i].title
              && b.sections[i].id == SectionId(sections[i], i)
    ensures forall i :: 0 <= i < |sections| ==> b.list[i + 1] == LinkFor(b.sections[i], i)
  {
    var named := seq(|sections|, i requires 0 <= i < |sections| =>
      sections[i].(id := SectionId(sections[i], i)));
    var links := seq(|sections|, i requires 0 <= i < |sections| => LinkFor(named[i], i));
    Built(named, [Indicator] + links)
  }

  /** An existing id is never replaced; every link's index attribute and
      number read back as the section's position. */
  lemma BuildNavigationKeepsIds(sections: seq<Section>, i: nat)
    requires i < |sections|
    ensures sections[i].id != "" ==> BuildNavigation(sections).sections[i] == sections[i]
    ensures ParseInt(BuildNavigation(sections).list[i + 1].sectionIndex) == Int(i)
    ensures ParseDigits(BuildNavigation(sections).list[i + 1].number) == i + 1
    ensures BuildNavigation(sections).list[i + 1].labelText == sections[i].title
  {
  }

  // ---------------------------------------------------------------------------
  // Click handling

  /** `href.substring(1)`: everything after the first character. */
  function TargetId(href: string): (id: string)
    ensures |href| > 0 ==> [href[0]] + id == href
    ensures |href| == 0 ==> id == ""
  {
    if |href| == 0 then "" else href[1..]
  }

  /** An element of the document: its id and the top of its bounding box
      relative to the viewport. */
  datatype Element = Element(id: string, top: real)

  /** `document.getElementById`: the first element with that id; the empty id
      matches nothing. */
  function GetElementById(doc: seq<Element>, id: string): (r: Option<nat>)
    ensures id == "" ==> r.None?
    ensures r.Some? ==> r.value < |doc| && doc[r.value].id == id
                        && forall j :: 0 <= j < r.value ==> doc[j].id != id
    ensures r.None? && id != "" ==> forall j :: 0 <= j < |doc| ==> doc[j].id != id
    decreases |doc|
  {
    if id == "" || |doc| == 0 then None
    else if doc[0].id == id then Some(0)
    else
      match GetElementById(doc[1..], id)
      case None => None
      case Some(k) => Some(k + 1)
  }

  /** The height of the sticky top bar the scroll target leaves room for. */
  const NavOffset: real := 80.0

  /** The effect of a click: the smooth-scroll target and the pushed URL hash. */
  datatype Scroll = Scroll(top: real, hash: string)

  /** The click handler of a link: nothing happens when no element has the
      target id; otherwise the page scrolls so that the element's top lands
      80 px below the viewport top, and the hash becomes `#id`. */
  function ClickLink(doc: seq<Element>, href: string, scrollY: real): (r: Option<Scroll>)
    ensures r.None? <==> GetElementById(doc, TargetId(href)).None?
    ensures r.Some? ==>
              var j := GetElementById(doc, TargetId(href)).value;
              r.value.top + NavOffset == doc[j].top + scrollY
              && r.value.hash == "#" + TargetId(href)
  {
    var id := TargetId(href);
    match GetElementById(doc, id)
    case None => None
    case Some(j) => Some(Scroll(doc[j].top + scrollY - NavOffset, "#" + id))
  }

  /** Looking up the id of element p finds p when no earlier element has it. */
  lemma {:induction false} LookupFirst(doc: seq<Element>, p: nat)
    requires p < |doc| && doc[p].id != ""
    requires forall j :: 0 <= j < p ==> doc[j].id != doc[p].id
    ensures GetElementById(doc, doc[p].id) == Some(p)
    decreases p
  {
    if p > 0 {
      assert doc[1..][p - 1] == doc[p];
      LookupFirst(doc[1..], p - 1);
    }
  }

  /** Round trip: the click handler of link i recovers exactly section i's id
      from the `href`, so on any page where the first element with that id is
      at position p, it scrolls to that element and pushes back the link's own
      `href`. */
  lemma ClickReachesSection(sections: seq<Section>, doc: seq<Element>, i: nat, p: nat, scrollY: real)
    requires i < |sections| && p < |doc|
    requires doc[p].id == BuildNavigation(sections).sections[i].id
    requires forall j :: 0 <= j < p ==> doc[j].id != doc[p].id
    ensures TargetId(BuildNavigation(sections).list[i + 1].href) == doc[p].id
    ensures var href := BuildNavigation(sections).list[i + 1].href;
            ClickLink(doc, href, scrollY) == Some(Scroll(doc[p].top + scrollY - NavOffset, href))
  {
    var b := BuildNavigation(sections);
    var href := b.list[i + 1].href;
    assert href == "#" + doc[p].id;
    assert TargetId(href) == doc[p].id by {
      assert href[1..] == doc[p].id;
    }
    assert doc[p].id == SectionId(sections[i], i);
    LookupFirst(doc, p);
    assert "#" + TargetId(href) == href;
    ClickFound(doc, href, scrollY, p);
  }

  /** Generated ids can collide with authored ones: a first section authored
      as `section-2` and a second without an id both end up `section-2`, and
      the second link then scrolls to the first section's element. */
  lemma IdCollision(top0: real, top1: real, scrollY: real)
    ensures var b := BuildNavigation([Section("section-2", "A"), Section("", "B")]);
            && b.sections[0].id == "section-2" && b.sections[1].id == "section-2"
            && ClickLink([Element("section-2", top0), Element("section-2", top1)], b.list[2].href, scrollY)
               == Some(Scroll(top0 + scrollY - NavOffset, "#section-2"))
  {
    var sections := [Section("section-2", "A"), Section("", "B")];
    var b := BuildNavigation(sections);
    GeneratedSecondId();
    assert b.sections[1].id == SectionId(sections[1], 1);
    var href := b.list[2].href;
    assert href == "#" + b.sections[1].id;
    assert TargetId(href) == "section-2" by {
      assert href[1..] == "section-2";
    }
    var doc := [Element("section-2", top0), Element("section-2", top1)];
    assert GetElementById(doc, "section-2") == Some(0);
    ClickFound(doc, href, scrollY, 0);
    assert b.sections[0].id == SectionId(sections[0], 0);
    assert "#" + TargetId(href) == "#section-2";
  }

  /** The id generated for an id-less second section. */
  lemma GeneratedSecondId()
    ensures SectionId(Section("", "B"), 1) == "section-2"
  {
    assert Digits(2) == "2";
  }

  /** A click whose target lookup finds element i scrolls to element i. */
  lemma ClickFound(doc: seq<Element>, href: string, scrollY: real, i: nat)
    requires GetElementById(doc, TargetId(href)) == Some(i)
    ensures ClickLink(doc, href, scrollY) == Some(Scroll(doc[i].top + scrollY - NavOffset, "#" + TargetId(href)))
  {
  }

  // ---------------------------------------------------------------------------
  // Active link

  /** A `.side-nav__link`: its `is-active` class and the top of its box. */
  datatype LinkBox = LinkBox(isActive: bool, top: real)

  /** The links and the indicator's vertical offset (`translateY`), which is
      unset until the first update. */
  datatype Indicated = Indicated(links: seq<LinkBox>, indicatorOffset: Option<real>)

  /** `updateActiveLink`: link `activeIndex` becomes the only one with
      `is-active`, and the indicator moves to that link's offset within the
      list (whose top is `listTop`). An index matching no link (the observer's
      `indexOf` miss is -1) clears every link and leaves the indicator alone. */
  function UpdateActiveLink(links: seq<LinkBox>, listTop: real, indicatorOffset: Option<real>, activeIndex: int): (r: Indicated)
    ensures |r.links| == |links|
    ensures forall i :: 0 <= i < |links| ==> r.links[i].top == links[i].top
    ensures forall i :: 0 <= i < |links| ==> (r.links[i].isActive <==> i == activeIndex)
    ensures 0 <= activeIndex < |links| ==> r.indicatorOffset.Some? && listTop + r.indicatorOffset.value == links[activeIndex].top
    ensures !(0 <= activeIndex < |links|) ==> r.indicatorOffset == indicatorOffset
  {
    var updated := seq(|links|, i requires 0 <= i < |links| => links[i].(isActive := i == activeIndex));
    if 0 <= activeIndex < |links| then Indicated(updated, Some(links[activeIndex].top - listTop))
    else Indicated(updated, indicatorOffset)
  }

  /** A second update with the same index changes nothing, and after any
      update with a valid index exactly one link is active. */
  lemma UpdateActiveLinkStable(links: seq<LinkBox>, listTop: real, offset: Option<real>, k: int)
    ensures var r := UpdateActiveLink(links, listTop, offset, k);
            UpdateActiveLink(r.links, listTop, r.indicatorOffset, k) == r
    ensures 0 <= k < |links| ==>
              var r := UpdateActiveLink(links, listTop, offset, k);
              r.links[k].isActive
              && forall i, j :: 0 <= i < |links| && 0 <= j < |links| && r.links[i].isActive && r.links[j].isActive ==> i == j
  {
  }
}

=== FILE: text.dfy ===
/** The string and number primitives of JavaScript that the modules rely on,
    restated over `seq<char>`: `toUpperCase` (ASCII only), `split` on one
    character, `trim`, `String(n)` for non-negative integers, `padStart`,
    and `parseInt(s, 10)`. */
module Text {
  import opened Wrappers

  // ---------------------------------------------------------------------------
  // Case

  /** `toUpperCase` on one character, restricted to ASCII letters. */
  function Upper(c: char): char {
    if 'a' <= c <= 'z' then (c as int - 32) as char else c
  }

  function UpperString(s: string): (u: string)
    ensures |u| == |s|
    ensures forall i :: 0 <= i < |s| ==> u[i] == Upper(s[i])
  {
    seq(|s|, i requires 0 <= i < |s| => Upper(s[i]))
  }

  // ---------------------------------------------------------------------------
  // Splitting on one separator character

  /** `s.split(sep)` for a one-character separator: the maximal runs between
      separators, empty runs included, so there is always at least one part. */
  function Split(s: string, sep: char): (parts: seq<string>)
    ensures |parts| >= 1
    ensures forall i :: 0 <= i < |parts| ==> sep !in parts[i]
    decreases |s|
  {
    if |s| == 0 then [""]
    else
      var rest := Split(s[1..], sep);
      if s[0] == sep then [""] + rest
      else [[s[0]] + rest[0]] + rest[1..]
  }

  /** `parts.join(sep)`, the inverse of `Split`. */
  function Join(parts: seq<string>, sep: char): string
    decreases |parts|
  {
    if |parts| == 0 then ""
    else if |parts| == 1 then parts[0]
    else parts[0] + [sep] + Join(parts[1..], sep)
  }

  /** The concatenation of all parts, in order. */
  function Flatten<T>(parts: seq<seq<T>>): seq<T>
    decreases |parts|
  {
    if |parts| == 0 then [] else parts[0] + Flatten(parts[1..])
  }

  /** `s` with every occurrence of `c` deleted. */
  function Remove(s: string, c: char): (r: string)
    ensures c !in r
    ensures |r| <= |s|
    decreases |s|
  {
    if |s| == 0 then ""
    else if s[0] == c then Remove(s[1..], c)
    else [s[0]] + Remove(s[1..], c)
  }

  /** The prefix of `s` before the first `c` (all of `s` when there is none). */
  function Before(s: string, c: char): (r: string)
    ensures c !in r
    ensures |r| <= |s| && r == s[..|r|]
    ensures |r| == |s| || s[|r|] == c
    decreases |s|
  {
    if |s| == 0 then ""
    else if s[0] == c then ""
    else [s[0]] + Before(s[1..], c)
  }

  /** The suffix of `s` after the first `c` (empty when there is none). */
  function After(s: string, c: char): string
    decreases |s|
  {
    if |s| == 0 then ""
    else if s[0] == c then s[1..]
    else After(s[1..], c)
  }

  /** Joining the parts of a split gives back the original string. */
  lemma {:induction false} JoinSplit(s: string, sep: char)
    ensures Join(Split(s, sep), sep) == s
    decreases |s|
  {
    if |s| == 0 {
    } else {
      var rest := Split(s[1..], sep);
      JoinSplit(s[1..], sep);
      if s[0] == sep {
        if |rest| == 1 {
          assert Join([""] + rest, sep) == "" + [sep] + rest[0];
        } else {
          assert Join([""] + rest, sep) == "" + [sep] + Join(rest, sep);
        }
        assert s == [s[0]] + s[1..];
      } else {
        var parts := [[s[0]] + rest[0]] + rest[1..];
        assert parts[1..] == rest[1..];
        if |rest| == 1 {
          assert Join(parts, sep) == [s[0]] + rest[0];
        } else {
          assert Join(rest, sep) == rest[0] + [sep] + Join(rest[1..], sep);
          assert Join(parts, sep) == [s[0]] + rest[0] + [sep] + Join(rest[1..], sep);
        }
        assert s == [s[0]] + s[1..];
      }
    }
  }

  /** Concatenating the parts of a split gives the string without its separators. */
  lemma {:induction false} FlattenSplit(s: string, sep: char)
    ensures Flatten(Split(s, sep)) == Remove(s, sep)
    decreases |s|
  {
    if |s| > 0 {
      var rest := Split(s[1..], sep);
      FlattenSplit(s[1..], sep);
      if s[0] == sep {
        assert ([""] + rest)[1..] == rest;
      } else {
        var parts := [[s[0]] + rest[0]] + rest[1..];
        assert parts[1..] == rest[1..];
        assert Flatten(rest) == rest[0] + Flatten(rest[1..]);
        assert Flatten(parts) == [s[0]] + rest[0] + Flatten(rest[1..]);
      }
    }
  }

  /** The first part of a split is the text before the first separator, and the
      remaining parts together hold the text after it, separators removed. */
  lemma {:induction false} SplitHead(s: string, sep: char)
    ensures Split(s, sep)[0] == Before(s, sep)
    ensures Flatten(Split(s, sep)[1..]) == Remove(After(s, sep), sep)
    decreases |s|
  {
    if |s| > 0 {
      var rest := Split(s[1..], sep);
      SplitHead(s[1..], sep);
      if s[0] == sep {
        assert ([""] + rest)[1..] == rest;
        FlattenSplit(s[1..], sep);
      } else {
        var parts := [[s[0]] + rest[0]] + rest[1..];
        assert parts[1..] == rest[1..];
      }
    }
  }

  // ---------------------------------------------------------------------------
  // Whitespace and trim

  /** The white-space characters `trim` and `parseInt` skip (ASCII ones, NBSP, BOM). */
  predicate IsWhite(c: char) {
    c == ' ' || c == '\t' || c == '\n' || c == '\r'
    || c as int == 0x0B || c as int == 0x0C || c as int == 0xA0 || c as int == 0xFEFF
  }

  predicate AllWhite(s: string) {
    forall i :: 0 <= i < |s| ==> IsWhite(s[i])
  }

  /** The number of leading white-space characters. */
  function LeadLen(s: string): (k: nat)
    ensures k <= |s|
    ensures AllWhite(s[..k])
    ensures k == |s| || !IsWhite(s[k])
    decreases |s|
  {
    if |s| > 0 && IsWhite(s[0]) then 1 + LeadLen(s[1..]) else 0
  }

  /** The number of trailing white-space characters. */
  function TrailLen(s: string): (k: nat)
    ensures k <= |s|
    ensures AllWhite(s[|s| - k..])
    ensures k == |s| || !IsWhite(s[|s| - k - 1])
    decreases |s|
  {
    if |s| > 0 && IsWhite(s[|s| - 1]) then
      var k := 1 + TrailLen(s[..|s| - 1]);
      assert s[|s| - k..] == s[..|s| - 1][|s| - k..] + [s[|s| - 1]];
      k
    else 0
  }

  /** `s.trim()`: `s` without its leading and trailing white space. */
  function Trim(s: string): (r: string)
    ensures |r| == 0 || (!IsWhite(r[0]) && !IsWhite(r[|r| - 1]))
    ensures exists i :: 0 <= i && i + |r| <= |s| && s[i..i + |r|] == r
                        && AllWhite(s[..i]) && AllWhite(s[i + |r|..])
  {
    TrimParts(s);
    TrimOf(s)
  }

  /** The text between the leading and the trailing white-space runs. */
  function TrimOf(s: string): string {
    var t := s[LeadLen(s)..];
    t[..|t| - TrailLen(t)]
  }

  /** What `Trim` promises, for the text between the white-space runs. */
  lemma TrimParts(s: string)
    ensures var r := TrimOf(s);
            && (|r| == 0 || (!IsWhite(r[0]) && !IsWhite(r[|r| - 1])))
            && exists i :: 0 <= i && i + |r| <= |s| && s[i..i + |r|] == r
                           && AllWhite(s[..i]) && AllWhite(s[i + |r|..])
  {
    var i := LeadLen(s);
    var t := s[i..];
    var k := TrailLen(t);
    var r := t[..|t| - k];
    assert r == TrimOf(s);
    assert |r| > 0 ==> r[0] == s[i] && r[|r| - 1] == t[|t| - k - 1];
    assert s[i..i + |r|] == r;
    assert s[i + |r|..] == t[|t| - k..];
    assert 0 <= i && i + |r| <= |s| && s[i..i + |r|] == r && AllWhite(s[..i]) && AllWhite(s[i + |r|..]);
  }

  // ---------------------------------------------------------------------------
  // Decimal numerals

  predicate IsDigit(c: char) {
    '0' <= c <= '9'
  }

  predicate AllDigits(s: string) {
    forall i :: 0 <= i < |s| ==> IsDigit(s[i])
  }

  function DigitChar(d: nat): (c: char)
    requires d < 10
    ensures IsDigit(c)
  {
    ('0' as int + d) as char
  }

  function DigitValue(c: char): (d: nat)
    requires IsDigit(c)
    ensures d < 10 && DigitChar(d) == c
  {
    c as int - '0' as int
  }

  /** `String(n)` for a non-negative integer: its decimal numeral without
      leading zeros. */
  function Digits(n: nat): (s: string)
    ensures |s| >= 1 && AllDigits(s)
    ensures |s| > 1 ==> s[0] != '0'
    decreases n
  {
    if n < 10 then [DigitChar(n)] else Digits(n / 10) + [DigitChar(n % 10)]
  }

  /** The value of a string of decimal digits (the empty string has value 0). */
  function ParseDigits(s: string): nat
    requires AllDigits(s)
    decreases |s|
  {
    if |s| == 0 then 0
    else ParseDigits(s[..|s| - 1]) * 10 + DigitValue(s[|s| - 1])
  }

  /** Reading back the numeral of `n` gives `n`. */
  lemma {:induction false} ParseDigitsOfDigits(n: nat)
    ensures ParseDigits(Digits(n)) == n
    decreases n
  {
    if n >= 10 {
      var s := Digits(n);
      ParseDigitsOfDigits(n / 10);
      assert s[..|s| - 1] == Digits(n / 10);
    }
  }

  /** Distinct numbers have distinct numerals. */
  lemma DigitsInjective(a: nat, b: nat)
    ensures Digits(a) == Digits(b) ==> a == b
  {
    ParseDigitsOfDigits(a);
    ParseDigitsOfDigits(b);
  }

  function Zeros(k: nat): (z: string)
    ensures |z| == k && AllDigits(z)
  {
    seq(k, _ => '0')
  }

  /** Leading zeros do not change the value of a numeral. */
  lemma {:induction false} LeadingZeros(k: nat, s: string)
    requires AllDigits(s)
    ensures ParseDigits(Zeros(k) + s) == ParseDigits(s)
    decreases |s| + k
  {
    var z := Zeros(k) + s;
    if |s| == 0 {
      assert z == Zeros(k);
      if k > 0 {
        assert z[..|z| - 1] == Zeros(k - 1);
        LeadingZeros(k - 1, "");
        assert Zeros(k - 1) + "" == Zeros(k - 1);
      }
    } else {
      assert z[..|z| - 1] == Zeros(k) + s[..|s| - 1];
      LeadingZeros(k, s[..|s| - 1]);
    }
  }

  /** `s.padStart(width, fill)` for a one-character `fill`. */
  function PadStart(s: string, width: nat, fill: char): (r: string)
    ensures |r| == if |s| >= width then |s| else width
    ensures r[|r| - |s|..] == s
    ensures forall i :: 0 <= i < |r| - |s| ==> r[i] == fill
  {
    if |s| >= width then s else seq(width - |s|, _ => fill) + s
  }

  /** Padding a numeral with '0' keeps it a numeral of the same value. */
  lemma PadStartZeros(s: string, width: nat)
    requires AllDigits(s)
    ensures AllDigits(PadStart(s, width, '0'))
    ensures ParseDigits(PadStart(s, width, '0')) == ParseDigits(s)
  {
    var k := if |s| >= width then 0 else width - |s|;
    assert PadStart(s, width, '0') == Zeros(k) + s;
    LeadingZeros(k, s);
  }

  // ---------------------------------------------------------------------------
  // parseInt

  /** A JavaScript number as far as the modules use one: an integer or NaN. */
  datatype Num = NaN | Int(value: int)

  /** JavaScript `===` on numbers: NaN equals nothing, not even NaN. */
  predicate StrictEq(a: Num, b: Num) {
    a.Int? && b.Int? && a.value == b.value
  }

  /** The length of the longest all-digit prefix. */
  function DigitPrefixLen(s: string): (k: nat)
    ensures k <= |s| && AllDigits(s[..k])
    ensures k == |s| || !IsDigit(s[k])
    decreases |s|
  {
    if |s| > 0 && IsDigit(s[0]) then
      var k := 1 + DigitPrefixLen(s[1..]);
      assert s[..k] == [s[0]] + s[1..][..k - 1];
      k
    else 0
  }

  /** `parseInt(s, 10)`: skip leading white space, read one optional sign, then
      the longest run of digits; NaN when that run is empty. (`-0` is `0`.) */
  function ParseInt(s: string): (r: Num)
    ensures r.Int? ==> exists i :: 0 <= i < |s| && IsDigit(s[i])
  {
    var t := s[LeadLen(s)..];
    var negative := |t| > 0 && t[0] == '-';
    var u := if |t| > 0 && (t[0] == '-' || t[0] == '+') then t[1..] else t;
    var k := DigitPrefixLen(u);
    if k == 0 then NaN
    else
      assert u[0] == s[|s| - |u|];
      Int(if negative then -(ParseDigits(u[..k]) as int) else ParseDigits(u[..k]))
  }

  /** `parseInt` of an attribute value that may be absent: `undefined` is
      converted to the string "undefined" first, which reads as NaN. */
  function ParseIntAttr(a: Option<string>): (r: Num)
    ensures a.None? ==> r.NaN?
  {
    ParseInt(a.GetOr("undefined"))
  }

  /** `parseInt` reads back the numeral of a non-negative integer. */
  lemma ParseIntDigits(n: nat)
    ensures ParseInt(Digits(n)) == Int(n)
  {
    var s := Digits(n);
    assert !IsWhite(s[0]);
    assert s[0..] == s;
    assert DigitPrefixLen(s) == |s|;
    assert s[..|s|] == s;
    ParseDigitsOfDigits(n);
  }

  /** `parseInt` reads a minus sign followed by a numeral as a negative number. */
  lemma ParseIntNegative(n: nat)
    ensures ParseInt("-" + Digits(n)) == Int(-(n as int))
  {
    var s := "-" + Digits(n);
    assert LeadLen(s) == 0;
    assert s[0..] == s;
    assert s[1..] == Digits(n);
    assert DigitPrefixLen(Digits(n)) == |Digits(n)|;
    assert Digits(n)[..|Digits(n)|] == Digits(n);
    ParseDigitsOfDigits(n);
  }
}

=== FILE: wrappers.dfy ===
/** The optional-value datatype shared by every module of the model.
    `None` stands for a missing DOM node or attribute (`null`/`undefined`). */
module Wrappers {

  datatype Option<+T> = None | Some(value: T) {

    /** The value, or `default` when there is none (the `x || default` idiom). */
    function GetOr(default: T): T {
      match this
      case Some(v) => v
      case None => default
    }
  }
}
